=== FILE: README.md ===
# bas2asm in Dafny

A model of `main.c`, the bas2asm translator. It takes a line-numbered BASIC dialect to x86-64 NASM assembly. The program reads the whole source once with output switched off, which only fills the variable table and the string pool. It then prints the `.bss` and `.data` sections from those tables. Finally it rewinds the input, switches output on, and reads the source a second time to emit the code of `_start`.

The model follows the program's own structure:

- `Basics` holds:
  - the failure-carrying `Result`;
  - the fatal errors;
  - the C character classes;
  - the C integer conversions that decide a literal's value: `strtol` saturation, then the modular `long`-to-`int` conversion.
- `Tables` is the variable table and the string pool:
  - lookup is case-insensitive and the first match wins;
  - the first declaration of a name wins;
  - each table holds at most 1024 entries;
  - names are cut to 63 characters and string values to 255.
- `Scanner` is the pure half of `next_token`: the next token and the text after it.
- `Lexer` applies a token's side effects to the translation context:
  - the line-start flag;
  - the current line;
  - the line label, emitted the moment a line number is read.
- `Context` is one immutable record of all the program's globals. Emission appends `Assembly.Instr` values and only while output is on.
- `Expressions` is the recursive-descent expression parser. It constant-folds through `current_value` and `new_value`, including the source's overwrites of `current_value`.
- `Statements` holds PRINT, INPUT, LET, DIM, GOTO, IF and EXIT, plus `parse_statement` and `parse_program`. A fatal `error` becomes a `Fail` result.
- `Driver` is the two passes and the layout of the data sections.
- `ScannerFacts`, `Folding` and `StatementFacts` hold lemmas.
  - They state what concrete spellings lex to and what whole statements record and emit.
  - They state these facts for all inputs of the given shape, under hypotheses such as `Scanner.Lexes(text, tokens, tail)` ("`text` reads as these tokens, away from the start of a line, and leaves `tail`").

Termination uses the length of the unread text as its measure. The lexer does not advance at the end of the input, and `parse_program` stops there.

Some quirks of the code are reproduced as written:

- A keyword is matched as a prefix in any letter case, so `IFX` is `IF` followed by `X`.
- Away from the start of a line, `10-3` is the number 10 followed by the number -3.
- The product loop does not read past its right factor, so a LET's extra `next_token` swallows the token after such an expression.
- Folding keeps only the last literal's contribution:
  - `LET X = 7` records 7;
  - `LET X = 6 / 4` records 4;
  - `LET X = 10 - 3` records 0;
  - `LET X = 2 + 3` records 6.
- Every IF resets its label counter, so its skip label is always `label_<line>_0`.
- PRINT of an undeclared variable emits nothing and is not an error.
- An undeclared INPUT target is an error only while output is on.
- Pass 2 resets only the cursor and the output switch. Every other global carries over from pass 1, the line-start flag included. A source without a final newline therefore ends pass 1 in the middle of a line, and pass 2 reads its first line number as a plain number and rejects the program.
- A variable used as a factor is loaded under its name as typed, not as declared.
- A string literal used as a factor loads `str_<k>`, where k counts the literals pooled so far. The data section labels every pooled literal `str_<line>`.

## Model

| member | source | states |
|---|---|---|
| Scanner.Scan | main.c:66-131 | Blanks are skipped. A line number is read only at the start of a line and a number only elsewhere, both within `int`. Identifiers have 1 to 63 letters and string literals at most 63 characters. A non-EOF token consumes input. The result is an error exactly when the first non-blank character starts no token. |
| Scanner.ScanToken | main.c:69-130 | The same facts, for text that starts with no blank. |
| Scanner.ScanWord | main.c:98-115 | A word is a keyword or an identifier of 1 to 63 letters, and is never a number, string or end of input. |
| Scanner.Numeral | main.c:72-84 | A numeral consumes input and is a line number at the start of a line and a number elsewhere, within the range of `int`. |
| Scanner.KeywordIndex | main.c:99-105 | The keyword found is the first in the fixed order that the text starts with, ignoring case. No keyword is found only when none matches. |
| Scanner.StrToL | main.c:74 | The value saturates to the range of `long`, and at least one character is consumed. |
| Scanner.ScanQuoted | main.c:86-96 | The body is the longest prefix of at most 63 characters that holds no quote, newline or NUL. A quote right after the body is consumed; a newline, NUL or anything after a cut body is left unread. |
| Scanner.SkipBlanks | main.c:67 | Only spaces and tabs are dropped, and the text left starts with neither. |
| Lexer.NextToken | main.c:66-131 | A line number clears the line-start flag, becomes the current line and emits its label, but only while output is on. A newline sets the flag. Nothing else is emitted and no table changes. It fails exactly when the scanner does. |
| Lexer.Advance | main.c:70-84 | The side effects of one token, stated per token kind. |
| ScannerFacts.SpellScans | main.c:66-131 | Every token a program can spell is read back from its spelling, leaving exactly the following text, provided the next character does not continue the token. |
| ScannerFacts.RenderLexes | main.c:66-131 | A sequence of such tokens, each after one blank and all read away from the start of a line, reads back as exactly those tokens in order. |
| ScannerFacts.StrToLOfDigits | main.c:74 | On any non-empty run of digits, leading zeros included, `strtol` gives the run's decimal value saturated to `long` and stops right after the digits. |
| ScannerFacts.StrToLOfNegativeDigits | main.c:74 | On a minus sign and a run of digits of value m, `strtol` gives -m saturated to `long` and stops right after the digits. |
| ScannerFacts.DigitsLiteral | main.c:72-76 | Any run of digits away from the line start is a number: its decimal value, saturated to `long`, wrapped to 32 bits. |
| ScannerFacts.NegativeDigits | main.c:72-76 | A minus sign and any run of digits, away from the line start, is the negated value, saturated and wrapped the same way. |
| ScannerFacts.DigitsLineNumber | main.c:78-84 | Any run of digits at the start of a line is a line number with the same value rule. |
| ScannerFacts.PaddedLineNumber | main.c:78-84 | A line number written with leading zeros, like `0010`, is the same line as without them. |
| ScannerFacts.NumberLiteral | main.c:72-76 | The canonical decimal spelling of n, away from the line start, is a number whose value is `strtol`'s, saturated to `long` and then wrapped to 32 bits. |
| ScannerFacts.NegativeLiteral | main.c:72-76 | A minus sign directly followed by the canonical spelling of n, away from the line start, is the number -n, saturated and wrapped. |
| ScannerFacts.MinusJoinsNumber | main.c:72-76 | A numeral followed directly by a negative numeral, away from the line start, reads as two numbers: `10-3` is 10 and then -3, not a subtraction. |
| ScannerFacts.NumberWraps | main.c:74 | A numeral `2^32 + m` reads as the number m. |
| ScannerFacts.LineNumberLiteral | main.c:78-84 | The canonical decimal spelling of n at the start of a line is a line number, with the same value rules. |
| ScannerFacts.KeywordLiteral | main.c:98-105 | A keyword in any letter case is read as that keyword whatever follows it, and exactly its own length is consumed. |
| ScannerFacts.IdentifierLiteral | main.c:106-114 | A word of letters that starts with no keyword is an identifier cut to 63 letters. The cut-off letters are read next. |
| ScannerFacts.StringLiteral | main.c:86-96 | A quoted literal of at most 63 clean characters is read whole, and its closing quote is consumed. |
| ScannerFacts.UnterminatedLiteral | main.c:86-96 | A literal without its closing quote ends at the newline or end of text, which is left unread. The body is kept. |
| ScannerFacts.LongLiteral | main.c:86-96 | A literal of more than 63 clean characters is cut after 63. The rest of it is read again as ordinary tokens. |
| ScannerFacts.PunctuationLiteral | main.c:117-128 | Each punctuation character is read as its token. Away from the start of a line, a minus sign followed by a digit is read as part of a number instead. At the start of a line it is always the minus token. |
| ScannerFacts.NewlineLiteral | main.c:70 | A newline is read as the end of a line. |
| ScannerFacts.LeadingBlanks | main.c:67 | Blanks before a token do not change what is read. |
| Tables.FindVariable | main.c:156-163 | The index returned is the first entry whose name matches ignoring case. None is returned exactly when no entry matches. |
| Tables.Insert | main.c:168-179 | An insertion appends exactly one entry when the name is new and the table has room, and otherwise changes nothing. Earlier entries are kept. |
| Tables.AddVariableNumber | main.c:166-180 | A numeric variable is added with its name cut to 63 characters, only if the name is new and fewer than 1024 entries exist. Table soundness (unique names, bounded size) is preserved. |
| Tables.AddVariableString | main.c:183-198 | The same for a string variable, whose value is cut to 255 characters. |
| Tables.AddString | main.c:236-243 | The pool grows by exactly one entry, with text cut to 63 characters, while fewer than 1024 entries exist. Existing entries are never altered. |
| Tables.LookupAfterAdd | main.c:156-180 | After an add, lookup finds the old entry if there was one, otherwise the new last entry, or nothing when the table is full. |
| Tables.FirstWriteWins | main.c:166-180 | A second insertion under a name equal up to case changes nothing. |
| Tables.FindInExtended | main.c:156-163 | Appending entries never changes the result of a lookup that already succeeds. |
| Tables.InsertKeepsTableSound | main.c:166-198 | An insertion keeps the table within capacity and its names pairwise distinct up to case. |
| Tables.PoolKeepsDuplicates | main.c:236-243 | Adding the same literal twice stores it twice, and the earlier pool is kept. |
| Context.Emit | main.c:257 | An instruction is appended exactly when output is on, and nothing else changes. |
| Expressions.ParseFactor | main.c:255-276 | A factor succeeds exactly on a number, a string, or a declared identifier, and fails with the matching error otherwise. Only a number sets `new_value`. Only a string adds a pool entry, at the current line. While output is on it emits exactly one instruction. The instruction is `mov rax, n` for a number and `lea rax, str_<k>` for a string, with k the pool size before the add. For a variable it loads the value of a number or the address of a string, under the name as typed. |
| Expressions.Multiply | main.c:294-300 | `*` multiplies `current_value` by `new_value`. `/` divides with C's truncation and fails on a zero divisor. |
| Expressions.Accumulate | main.c:319-325 | `+` and `-` add `new_value` to, or subtract it from, `current_value`. |
| Expressions.ProductLoop | main.c:282-301 | The loop stops at once unless the token is `*` or `/`. After a step the current token is still the right factor. It always ends on a token that is neither `*` nor `/`. |
| Expressions.ParseProduct | main.c:278-302 | A product starts on a factor token and ends on a token that is neither `*` nor `/`. It keeps the variable table and the IF state, and only extends the pool and the code. |
| Expressions.ProductStep | main.c:283-300 | One `*` or `/` step consumes input, ends on the right factor, and only extends the pool and the code. |
| Expressions.SumStep | main.c:308-325 | One `+` or `-` step consumes input, ends on a token that is neither `*` nor `/`, and only extends the pool and the code. |
| Expressions.ParseExpression | main.c:304-327 | An expression starts on a factor token and ends on a token that is none of `+`, `-`, `*`, `/`. It keeps the variable table and the IF state, and only extends the pool and the code. |
| Expressions.SumLoop | main.c:307-326 | The loop stops at once unless the token is `+` or `-`. It always ends on a token that is neither, and on one that is not `*` or `/` when it starts on such a token. |
| Folding.LiteralFactor | main.c:256-258 | A literal factor loads the literal and becomes `new_value`. |
| Folding.FoldLiteral | main.c:278-306 | A lone literal folds to its value and emits one load. The following token is read. |
| Folding.FoldProduct | main.c:278-302 | `a*b` and `a/b` fold to b, because `parse_expression` overwrites `current_value` with `new_value` after the product (main.c:306). The expression fails exactly on division by a zero literal. The exact instruction sequence is stated. |
| Folding.FoldSum | main.c:304-327 | `a+b` folds to 2b and `a-b` to 0, because of the overwrites at lines 281 and 306. The exact instruction sequence is stated. |
| Folding.ProductStepLiteral | main.c:283-300 | One product step on a literal folds by C multiplication or truncating division. It fails exactly on division by zero and emits the push, load, exchange and operation. |
| Folding.MultiplyLiteral | main.c:288-300 | The arithmetic and emission of one product step, given its right literal. |
| Folding.AccumulateLiteral | main.c:308-325 | The arithmetic and emission of one sum step, given its right literal. |
| Statements.Record | main.c:352 | The prompt literal is added to the pool at the current line, and nothing else changes. |
| Statements.ParsePrint | main.c:329-346 | PRINT keeps the variable table and the IF state, and consumes input. |
| Statements.ReadInto | main.c:365-379 | With output on, INPUT fails exactly when its target is undeclared, and otherwise only emits code. |
| Statements.Prompted | main.c:349-355 | INPUT's prompt and comma are read, and the current token is the comma. |
| Statements.ParseInput | main.c:348-380 | INPUT keeps the variable table and consumes input. |
| Statements.Assign | main.c:394-403 | LET records a string with flag 0 and leaves the pool alone. An expression right-hand side records the folded `current_value` with flag 0. |
| Statements.Declare | main.c:417-425 | DIM records "" or 0 with flag 1. |
| Statements.PrintVariable | main.c:335-345 | PRINT of a name changes only the code, and that only while output is on. |
| Statements.InputHead | main.c:348-358 | INPUT's prompt, comma and target are read. The target name is cut to 63 characters and the variable table is unchanged. |
| Statements.Binding | main.c:383-392 | The shared `IDENT =` head of LET and DIM consumes input, cuts the name to 63 characters and keeps the variable table. |
| Statements.DeclareNumber | main.c:401 | A numeric record goes through the table's first-write-wins insertion at the current line, and nothing else changes. |
| Statements.DeclareString | main.c:396 | A string record goes through the table's first-write-wins insertion at the current line, and nothing else changes. |
| Statements.ParseLet | main.c:382-404 | A successful LET consumes input and only extends the tables and code. Its two errors are stated by StatementFacts.LetWithoutName and StatementFacts.LetWithoutEquals. |
| Statements.ParseDim | main.c:406-426 | A successful DIM consumes input and only extends the tables and code. Its two errors are stated by StatementFacts.DimWithoutName and StatementFacts.DimWithoutEquals. |
| Statements.ParseGoto | main.c:428-433 | A successful GOTO consumes input and keeps the variable table. Its error is stated by StatementFacts.GotoWithoutNumber. |
| Statements.ParseExit | main.c:435-438 | EXIT emits the exit system call while output is on, then reads the next token. It fails exactly when that token cannot be read. It keeps the variable table and makes progress. |
| Statements.ParseSimple | main.c:485-497 | The four statements allowed after an IF's colon each make progress and only extend the tables and code. |
| Statements.IfHead | main.c:453-476 | An IF head succeeds only when its condition is followed by a colon. It fails with the colon error whenever the condition is followed by anything else. On success it consumes input and leaves the IF armed with counter 0. |
| Statements.ParseIf | main.c:453-479 | A successful IF consumes input and only extends the tables and code. |
| Statements.ParseStatement | main.c:440-501 | Without a line number, a statement is accepted only right after an IF's colon, and only PRINT, LET, GOTO or EXIT. It then disarms the IF and keeps the counter. Every accepted statement consumes input or reaches the end. The rejection after a line number is stated by StatementFacts.UnlistedStatement. |
| Statements.Compare | main.c:459-474 | Without `<`, `>` or `=`, nothing is compared or emitted. With one, the comparison only extends the pool and the code; its exact code is stated by StatementFacts.CompareExpression. |
| Statements.Branch | main.c:467-471 | `=`, `>` and `<` each get their own jump (`jne`, `jg`, `jl`) to a label of the IF's line. `jne` and `jg` carry the IF's counter, while `jl` gets none. |
| Statements.CloseIf | main.c:478-479 | The skip label `label_<line>_<counter>` is emitted while output is on, then the counter is incremented. |
| Statements.Condition | main.c:454-474 | An IF's condition arms the IF with counter 0 and consumes input. |
| Statements.ParseProgram | main.c:503-508 | A program is read to the end of input, and every step only extends the tables and code. |
| StatementFacts.BindingLexed | main.c:383-392 | `IDENT =` is read, the typed name is kept, and the token after `=` is current. |
| StatementFacts.LetWithoutName | main.c:383-384 | LET followed by anything but an identifier fails with the identifier error. |
| StatementFacts.DimWithoutName | main.c:407-408 | DIM followed by anything but an identifier fails with the identifier error. |
| StatementFacts.BindingWithoutEquals | main.c:390-391 | A name not followed by `=` fails with the `=` error. |
| StatementFacts.LetWithoutEquals | main.c:390-391 | `LET name` followed by anything but `=` fails with the `=` error. |
| StatementFacts.DimWithoutEquals | main.c:414-415 | `DIM name` followed by anything but `=` fails with the `=` error. |
| StatementFacts.NumberedLetWithoutName | main.c:449-450 | A numbered line `n LET = ...` fails with the identifier error of LET. |
| StatementFacts.UnknownStatement | main.c:482-483 | A line number followed by a token that opens no statement fails with the invalid-statement error. |
| StatementFacts.UnlistedStatement | main.c:440-483 | Whatever text follows, a line number whose next token is none of PRINT, INPUT, DIM, LET, GOTO, IF or EXIT is rejected as an invalid statement. |
| StatementFacts.LetOfExpression | main.c:398-402 | LET with an expression stores rax into the variable, records the folded value with flag 0, then reads one more token. It succeeds exactly when that token can be read. |
| StatementFacts.LetLiteral | main.c:382-404 | `LET x = a` records a and emits the load and the store. |
| StatementFacts.LetProduct | main.c:382-404 | `LET x = a op b` with `*` or `/` records b. It fails exactly on division by a zero literal. |
| StatementFacts.LetSum | main.c:382-404 | `LET x = a + b` records 2b and `LET x = a - b` records 0. |
| StatementFacts.LetString | main.c:394-397 | `LET x = "t"` records the string with flag 0, emits a load of the next pool index, and leaves the pool unchanged. |
| StatementFacts.DimString | main.c:418-420 | `DIM x = "t"` records "" with flag 1 and emits nothing of its own. |
| StatementFacts.DimNumber | main.c:421-424 | `DIM x = a` records 0 with flag 1. Only the expression's load is emitted. |
| StatementFacts.InputWithoutPrompt | main.c:349-350 | INPUT without a string literal fails with the prompt error. |
| StatementFacts.InputWithoutComma | main.c:354-355 | INPUT without a comma after the prompt fails with the comma error. |
| StatementFacts.InputWithoutName | main.c:357-358 | INPUT without an identifier after the comma fails with the identifier error. |
| StatementFacts.PromptedLexed | main.c:349-355 | The prompt is pooled at the current line, and the comma is current. |
| StatementFacts.InputReads | main.c:348-380 | INPUT fails exactly when output is on and the target is undeclared. Otherwise the prompt is pooled, and with output on the prompt printf is emitted. The scanf is emitted only for a DIM-declared target, typed by the variable's kind. |
| StatementFacts.ReadIntoCode | main.c:365-379 | The prompt is followed by a scanf only when bit 0 of the target's flags is set. |
| StatementFacts.PrintsLiteral | main.c:330-334 | PRINT of a literal pools it at the current line and emits one printf of `str_<line>`. |
| StatementFacts.PrintsVariable | main.c:335-345 | PRINT of a variable emits one printf, typed by the variable's kind, of the declared name. An undeclared name emits nothing and is not an error. |
| StatementFacts.GotoLexed | main.c:428-433 | GOTO emits one jump to `label_<n>`. |
| StatementFacts.GotoWithoutNumber | main.c:429-430 | GOTO followed by anything but a number fails with the line-number error. |
| StatementFacts.ExitLexed | main.c:435-438 | EXIT emits `mov rax, 60`, `xor rdi, rdi`, `syscall` while output is on, and the following token becomes current. |
| StatementFacts.CompareExpression | main.c:459-473 | For `<`, `>` or `=` and any right expression: push, the right expression's code, `pop rbx`, `cmp rbx, rax`, then the operator's jump to `label_<line>_<counter>` with the counter the IF had. |
| StatementFacts.CompareLiteral | main.c:460-473 | The comparison pushes, loads, pops and compares, then branches: `jne` for `=`, `jg` for `>`, and `jl` for `<`. |
| StatementFacts.ConditionLiteral | main.c:454-474 | `IF a op b` emits the full comparison with counter 0 and arms the IF. |
| StatementFacts.IfHeadAfter | main.c:475-476 | After the condition, the colon is read past. |
| StatementFacts.IfWithoutColon | main.c:475 | An IF whose condition is a single literal followed by neither a comparison, an operator nor a colon fails with the colon error. |
| StatementFacts.IfMissingColon | main.c:475 | An IF whose condition, of any shape, is followed by anything but a colon fails with the colon error. |
| StatementFacts.IfClosing | main.c:477-479 | The trailing statement's code is followed by `label_<line>_0`. The counter is then 1 and the IF disarmed. |
| Driver.BssSection | main.c:530-543 | `.bss` has at most one line per variable, and every line is a reservation. |
| Driver.InitSection | main.c:558-571 | `.data` has at most one line per variable, and every line is an initialised value. |
| Driver.Reserve | main.c:532-541 | A `.bss` entry is `resq 4` (`sizeof(int)` quad words) for a number and `resb 256` for a string, under the variable's name. |
| Driver.Initialise | main.c:560-569 | A `.data` entry initialises a variable with its recorded value. |
| Driver.StringSection | main.c:554-556 | One `str_<line>` line per pool entry, in pool order, duplicates included. |
| Driver.Pass1 | main.c:523-526 | The first pass emits nothing, ends at end of input and leaves the tables sound. |
| Driver.Rewind | main.c:607-608 | Only the cursor and the output switch are reset. The tables, code, line-start flag, current line and token, IF state and folding values carry over from pass 1. |
| Driver.Pass2 | main.c:607-610 | The second pass ends at end of input with output on, and only extends the tables and code of pass 1. |
| Driver.StringFactorLabel | main.c:259-261 | A string factor emits `lea rax, str_<k>`, with k the pool size before the add. The data section (main.c:554-556) labels that same entry `str_<line>`, by the line it was pooled on. |
| Driver.MidLineRestart | main.c:523-610 | If pass 1 ends in the middle of a line outside an IF, a program that starts with a line number is rejected in pass 2 as an invalid statement. |
| Driver.Translate | main.c:523-610 | A translation succeeds exactly when both passes do. `.bss`, the string lines and the variable lines of `.data` are laid out from pass 1's tables. The code is what pass 2 emits, and the section sizes match the table sizes. |
| Driver.TranslatedSections | main.c:530-571 | In a translation, `.bss` holds exactly the reservations of pass 1's variables with flag bit 0 set, `.data` exactly the values of the others, and every variable appears once. |
| Driver.SectionsPartition | main.c:530-571 | Every variable lands in exactly one of `.bss` and `.data`. |
| Driver.SectionsAppend | main.c:530-571 | Laying out a longer table never reorders the lines already laid out. |
| Driver.BssMembers | main.c:530-543 | `.bss` holds exactly the reservations of the variables with flag bit 0 set. |
| Driver.InitMembers | main.c:558-571 | `.data` holds exactly the values of the variables with flag bit 0 clear. |
| Basics.ToInt | main.c:74 | A `long` is converted to `int` modulo 2^32, into the signed range. |
| Basics.ClampLong | main.c:74 | `strtol` saturates at `LONG_MIN` and `LONG_MAX` and keeps values in range. |
| Basics.CDiv | main.c:298 | The quotient truncates toward zero. The remainder is smaller than the divisor and has the dividend's sign. |
| Basics.Truncate | main.c:174-175 | `strncpy` into a buffer of n + 1 characters keeps a prefix of at most n characters, and all of a shorter text. |
| Basics.DecimalOfShowNat | main.c:81 | Reading back the decimal spelling `%d` prints gives the number again. |

## Left out

- Reading standard input into the 16 KB buffer (main.c:515-521) is I/O. The model takes the source text as a string.
- Text formatting is not modelled:
  - `printf`/`vprintf` formatting and the NULL-format guard (main.c:142-153);
  - the constant `.data` boilerplate (main.c:545-552);
  - the `.text` preamble with `string_concat` (main.c:573-605).
  - Instructions and data lines are datatype values.
- `error` writes to stderr and calls `exit(1)` (main.c:134-139). This is modelled only as a `Fail` result carrying the error. Output printed before the error (the data sections and part of pass 2) is not modelled.
- `free_variables` and `free_strings` (main.c:201-252) are teardown after translation and affect no result.
- `find_string` (main.c:223-233) is never called.
- The NULL guards of the two add functions (main.c:167, main.c:184) are not modelled, because names and values are never NULL there.
- The "Unknown comparison operator" error (main.c:471) cannot be reached, because the branch is only entered on `<`, `>` or `=`.
- Statements.Branch: for `<` the source passes no second argument to its format (main.c:469), which is undefined behaviour. The model emits `Jl(line)` and leaves the label's counter unspecified.
- Expressions.Multiply: uses unbounded integers. The C multiplication and division of `int` may overflow, which is undefined behaviour (main.c:295-298). Division by zero, also undefined, is modelled as a `DivisionByZero` failure.
- Expressions.Accumulate: uses unbounded integers. The C addition and subtraction of `int` may overflow, which is undefined behaviour (main.c:320-323).
- `IF a op b : statement` as one end-to-end equation is not stated. IF is covered in parts that compose:
  - StatementFacts.ConditionLiteral for the condition;
  - StatementFacts.IfHeadAfter for the colon;
  - StatementFacts.IfClosing for the trailing statement and skip label.
- The statement-level lemmas describe statements whose operands are literals or single tokens. Statements with longer expressions are covered only by the general contracts of `Expressions` and `Statements`.
- Characters stand for bytes. The C code counts bytes, so a text with multi-byte characters would be cut at a different place than the model cuts it.
- Expressions.ParseProduct: the folded `current_value` is stated only for literal operands (Folding.FoldLiteral, Folding.FoldProduct). The general contract gives only the frame and the token the product ends on.
- Expressions.ParseExpression: the folded `current_value` is stated only for one or two literal operands (Folding.FoldLiteral, Folding.FoldProduct, Folding.FoldSum). The general contract gives only the frame and the token the expression ends on.
- Scanner.StrToL: its own contract gives only the `long` range and progress. The value read is stated by ScannerFacts.StrToLOfDigits and ScannerFacts.StrToLOfNegativeDigits.
- The token record's stale fields (the C `current_token` keeps the previous `value`, `name` and `str_val`) are not modelled. Each token carries only its own payload, and the source never reads a stale field.

=== FILE: assembly.dfy ===
/**
 * The translator's output as values rather than text: one `Instr` per
 * emission (some stand for a fixed group of lines the translator always
 * prints together) and one `DataDecl` per line of the data sections.
 */
module Assembly {

  datatype Instr =
      /** `label_<line>:`, emitted when a line-number token is read. */
    | Label(line: int)
      /** `label_<line>_<counter>:`, the point an IF skips to. */
    | SkipLabel(line: int, counter: int)
      /** `mov rax, <value>` */
    | MovImm(value: int)
      /** `lea rax, str_<index>` */
    | LeaString(index: int)
      /** `mov rax, [<name>]` */
    | LoadNumber(name: string)
      /** `lea rax, [<name>]` */
    | LoadAddress(name: string)
    | PushRax
    | PopRax
    | PopRbx
      /** `mov rbx, rax` */
    | MovRbxRax
      /** `mul rbx` */
    | MulRbx
      /** `xor rdx, rdx` then `div rbx` */
    | DivRbx
      /** `add rax, rbx` */
    | AddRbx
      /** `sub rax, rbx` */
    | SubRbx
      /** `cmp rbx, rax` */
    | CmpRbxRax
      /** `jne label_<line>_<counter>` */
    | Jne(line: int, counter: int)
      /** `jg label_<line>_<counter>` */
    | Jg(line: int, counter: int)
      /** `jl label_<line>_?`: the source passes no counter argument here. */
    | Jl(line: int)
      /** `jmp label_<line>` */
    | Jmp(line: int)
      /** `mov [<name>], rax` */
    | StoreRax(name: string)
      /** printf of the pooled literal `str_<line>` with the string format. */
    | PrintLiteral(line: int)
      /** printf of a string variable with the string format. */
    | PrintText(name: string)
      /** printf of a numeric variable with the number format. */
    | PrintNumber(name: string)
      /** printf of the prompt `str_<line>` without a line break. */
    | Prompt(line: int)
      /** scanf of a string variable. */
    | ScanText(name: string)
      /** scanf of a numeric variable. */
    | ScanNumber(name: string)
      /** `mov rax, 60`, `xor rdi, rdi`, `syscall`: exit with status 0. */
    | ExitSyscall

  /** The counts printed in .bss: `resq sizeof(int)`, that is four quad
      words, for a number, and `resb` of the 256-byte string buffer for a
      string. */
  const NumberReserve: nat := 4
  const TextReserve: nat := 256

  datatype DataDecl =
      /** `<name> resq <count>` */
    | Resq(name: string, count: nat)
      /** `<name> resb <count>` */
    | Resb(name: string, count: nat)
      /** `str_<line> db "<text>", 0` */
    | StrConst(line: int, text: string)
      /** `<name> dq <value>` */
    | Dq(name: string, value: int)
      /** `<name> db "<text>", 0` */
    | Db(name: string, text: string)
}

=== FILE: basics.dfy ===
/**
 * Shared vocabulary of the translator model: the failure-carrying result
 * type, the translator's fatal errors, the C character classes it relies on
 * (in the "C" locale) and the C integer conversions that decide the value of
 * a numeric literal.
 */
module Basics {

  /** The fatal errors of the translator; each one aborts the whole run. */
  datatype Error =
    | UnexpectedCharacter
    | UndefinedVariable
    | ExpectedFactor
    | ExpectedStringAfterInput
    | ExpectedComma
    | ExpectedIdentifier
    | ExpectedEquals
    | ExpectedLineNumber
    | ExpectedColon
    | VariableDoesNotExist
    | InvalidStatement
      /** Constant folding divided by zero, which is undefined behaviour in C. */
    | DivisionByZero

  datatype Option<+T> = None | Some(value: T)

  /** A value, or the fatal error that ended translation. Usable with `:-`. */
  datatype Result<+T> = Ok(value: T) | Fail(error: Error) {
    predicate IsFailure() {
      Fail?
    }

    function PropagateFailure<U>(): Result<U>
      requires Fail?
    {
      Fail(error)
    }

    function Extract(): T
      requires Ok?
    {
      value
    }
  }

  // ---------------------------------------------------------------------
  // Characters ("C" locale: only ASCII letters and digits are classified)
  // ---------------------------------------------------------------------

  predicate IsDigit(c: char) {
    '0' <= c <= '9'
  }

  predicate IsAlpha(c: char) {
    'a' <= c <= 'z' || 'A' <= c <= 'Z'
  }

  /** The characters the lexer skips between tokens. */
  predicate IsBlank(c: char) {
    c == ' ' || c == '\t'
  }

  /** `tolower` in the "C" locale. */
  function Lower(c: char): (r: char)
    ensures IsAlpha(c) ==> 'a' <= r <= 'z'
    ensures !IsAlpha(c) ==> r == c
    ensures 'a' <= c <= 'z' ==> r == c
  {
    if 'A' <= c <= 'Z' then (c as int + 32) as char else c
  }

  /** `strcasecmp(a, b) == 0` for strings without an embedded NUL. */
  predicate SameIgnoringCase(a: string, b: string) {
    |a| == |b| && forall i :: 0 <= i < |a| ==> Lower(a[i]) == Lower(b[i])
  }

  /** The character a C pointer into `s` would read at offset `i`: past the
      end of the text it reads the terminating NUL. */
  function Peek(s: string, i: nat): char {
    if i < |s| then s[i] else '\0'
  }

  /** `strncpy` into a buffer of `n + 1` characters followed by a terminating NUL. */
  function Truncate(s: string, n: nat): (r: string)
    ensures |r| <= n
    ensures r <= s
    ensures |s| <= n ==> r == s
    ensures n <= |s| ==> |r| == n
  {
    if |s| <= n then s else s[..n]
  }

  predicate AllDigits(s: string) {
    forall i :: 0 <= i < |s| ==> IsDigit(s[i])
  }

  function DigitValue(c: char): (d: nat)
    requires IsDigit(c)
    ensures d < 10
  {
    c as int - '0' as int
  }

  /** The value of a run of decimal digits, most significant digit first. */
  function Decimal(ds: string): nat
    requires AllDigits(ds)
  {
    if |ds| == 0 then 0 else Decimal(ds[..|ds| - 1]) * 10 + DigitValue(ds[|ds| - 1])
  }

  /** The decimal spelling of a natural number, as `%d` prints it. */
  function ShowNat(n: nat): (s: string)
    ensures |s| >= 1
    ensures AllDigits(s)
    decreases n
  {
    if n < 10 then ['0' + n as char] else ShowNat(n / 10) + ['0' + (n % 10) as char]
  }

  /** Reading back the spelling `%d` prints gives the number again. */
  lemma {:induction false} DecimalOfShowNat(n: nat)
    ensures Decimal(ShowNat(n)) == n
    decreases n
  {
    var s := ShowNat(n);
    if n >= 10 {
      DecimalOfShowNat(n / 10);
      assert s[..|s| - 1] == ShowNat(n / 10);
    }
  }

  /** Leading zeros do not change the value of a digit run. */
  lemma {:induction false} LeadingZeros(z: string, ds: string)
    requires AllDigits(ds) && forall i :: 0 <= i < |z| ==> z[i] == '0'
    ensures AllDigits(z + ds) && Decimal(z + ds) == Decimal(ds)
    decreases |z|
  {
    if |z| == 0 {
      assert z + ds == ds;
    } else {
      LeadingZeros(z[1..], ds);
      assert z + ds == "0" + (z[1..] + ds);
      LeadingZero(z[1..] + ds);
    }
  }

  lemma {:induction false} LeadingZero(ds: string)
    requires AllDigits(ds)
    ensures AllDigits("0" + ds) && Decimal("0" + ds) == Decimal(ds)
    decreases |ds|
  {
    var z := "0" + ds;
    if |ds| > 0 {
      LeadingZero(ds[..|ds| - 1]);
      assert z[..|z| - 1] == "0" + ds[..|ds| - 1];
    }
  }

  // ---------------------------------------------------------------------
  // C integers (LP64: `long` has 64 bits, `int` has 32)
  // ---------------------------------------------------------------------

  const IntMin: int := -0x8000_0000
  const IntMax: int := 0x7fff_ffff
  const LongMin: int := -0x8000_0000_0000_0000
  const LongMax: int := 0x7fff_ffff_ffff_ffff

  /** `strtol` saturates an out-of-range value at LONG_MIN / LONG_MAX. */
  function ClampLong(n: int): (r: int)
    ensures LongMin <= r <= LongMax
    ensures LongMin <= n <= LongMax ==> r == n
    ensures n > LongMax ==> r == LongMax
    ensures n < LongMin ==> r == LongMin
  {
    if n < LongMin then LongMin else if n > LongMax then LongMax else n
  }

  /** Conversion of a `long` to `int`, which GCC defines as reduction modulo
      2^32 into the signed range. */
  function ToInt(n: int): (r: int)
    ensures IntMin <= r <= IntMax
    ensures (n - r) % 0x1_0000_0000 == 0
  {
    (n - IntMin) % 0x1_0000_0000 + IntMin
  }

  lemma ToIntKeepsIntValues(n: int)
    requires IntMin <= n <= IntMax
    ensures ToInt(n) == n
  {
  }

  function Abs(n: int): nat {
    if n < 0 then -n else n
  }

  /** C's `/` on integers: the quotient truncated toward zero. */
  function CDiv(a: int, b: int): (q: int)
    requires b != 0
    ensures Abs(a - q * b) < Abs(b)
    ensures a - q * b == 0 || (a - q * b < 0 <==> a < 0)
  {
    var m := Abs(a) / Abs(b);
    if (a < 0) == (b < 0) then m else -m
  }
}

=== FILE: context.dfy ===
/**
 * The translation context: one immutable record holding everything the
 * translator keeps in global variables, and the emission primitive that
 * appends an instruction only while output is switched on.
 */
module Context {
  import opened Basics
  import opened Tables
  import opened Scanner
  import opened Assembly

  datatype State = State(
    /** The unread source text (the `input` cursor). */
    rest: string,
    /** Whether the next token starts a logical line (`lineno_start`). */
    linenoStart: bool,
    /** The line number most recently read (`lineno`). */
    lineno: int,
    /** The token just read (`current_token`). */
    tok: Token,
    /** The variable table; its length is `variable_counter`. */
    vars: seq<Variable>,
    /** The string pool; its length is `print_strings_counter`. */
    pool: seq<PoolEntry>,
    /** The running constant-folded value (`current_value`). */
    currentValue: int,
    /** The value of the last numeric literal factor (`new_value`). */
    newValue: int,
    /** Set by IF so that the trailing statement is accepted (`if_statement`). */
    ifStatement: bool,
    /** The per-IF skip-label counter (`label_counter`). */
    labelCounter: int,
    /** Whether emission is on (`output`). */
    output: bool,
    /** Everything emitted so far, in order. */
    code: seq<Instr>)

  /** The globals as the program starts them, with the given output switch
      and source text. The token is zero-initialised (a numeric token 0). */
  function Start(src: string, output: bool): State {
    State(src, true, 0, Number(0), [], [], 0, 0, false, 0, output, [])
  }

  /** `if (output) emit(...)`: append one instruction while output is on. */
  function Emit(s: State, i: Instr): (r: State)
    ensures r == s.(code := r.code)
    ensures r.code == if s.output then s.code + [i] else s.code
    ensures Extends(s, r) && KeepsIfState(s, r)
  {
    if s.output then s.(code := s.code + [i]) else s
  }

  /** The capacity bounds of both tables and the distinctness of names. */
  predicate TablesOk(s: State) {
    |s.vars| <= MaxVariables && |s.pool| <= MaxStrings && UniqueNames(s.vars)
  }

  /** How every parsing step relates its final state to its initial one:
      input is consumed, never re-read; the tables and the emitted code only
      grow at their ends; nothing is emitted while output is off; the output
      switch never changes; and sound tables stay sound. */
  predicate Extends(s: State, r: State) {
    && |r.rest| <= |s.rest|
    && r.output == s.output
    && s.vars <= r.vars
    && s.pool <= r.pool
    && s.code <= r.code
    && (!s.output ==> r.code == s.code)
    && (TablesOk(s) ==> TablesOk(r))
  }

  /** The IF bookkeeping is left alone. */
  predicate KeepsIfState(s: State, r: State) {
    r.ifStatement == s.ifStatement && r.labelCounter == s.labelCounter
  }

  lemma ExtendsTransitive(a: State, b: State, c: State)
    requires Extends(a, b) && Extends(b, c)
    ensures Extends(a, c)
  {
  }
}

=== FILE: driver.dfy ===
/**
 * The translator's driver: two passes over the same source text, and the
 * data sections written between them.
 *
 * The first pass runs with output off and only fills the tables. The data
 * sections are then laid out from those tables: `.bss` reserves storage for
 * every DIM-declared variable, `.data` holds the pooled string literals and
 * the LET-initialised variables. The second pass rewinds the cursor, turns
 * output on and parses again; every other global (the tables, the
 * line-start flag, the folding values, the IF bookkeeping) carries over from
 * the first pass.
 */
module Driver {
  import opened Basics
  import opened Tables
  import opened Scanner
  import opened Assembly
  import opened Context
  import opened Lexer
  import opened Expressions
  import opened Statements
  import opened ScannerFacts

  /** The `.bss` entry of a variable: `resq` with the size of an `int` as
      its count (four quad words) for a number, `resb` with the string
      buffer's size for a string. */
  function Reserve(v: Variable): (d: DataDecl)
    ensures !d.StrConst? && d.name == v.name
    ensures d.Resq? <==> v.payload.Num?
    ensures d.Resq? ==> d.count == NumberReserve
    ensures d.Resb? ==> d.count == TextReserve
  {
    match v.payload
    case Num(_) => Resq(v.name, NumberReserve)
    case Text(_) => Resb(v.name, TextReserve)
  }

  /** The `.data` entry of a variable: its recorded value. */
  function Initialise(v: Variable): (d: DataDecl)
    ensures !d.StrConst? && d.name == v.name
    ensures d.Dq? <==> v.payload.Num?
  {
    match v.payload
    case Num(n) => Dq(v.name, n)
    case Text(t) => Db(v.name, t)
  }

  /** The `.bss` lines, one per DIM-declared variable, in table order. */
  function BssSection(vars: seq<Variable>): (r: seq<DataDecl>)
    ensures |r| <= |vars|
    ensures forall d :: d in r ==> d.Resq? || d.Resb?
  {
    if |vars| == 0 then []
    else (if DeclaredOnly(vars[0]) then [Reserve(vars[0])] else []) + BssSection(vars[1..])
  }

  /** The variable lines of `.data`, one per LET-initialised variable, in
      table order. */
  function InitSection(vars: seq<Variable>): (r: seq<DataDecl>)
    ensures |r| <= |vars|
    ensures forall d :: d in r ==> d.Dq? || d.Db?
  {
    if |vars| == 0 then []
    else (if DeclaredOnly(vars[0]) then [] else [Initialise(vars[0])]) + InitSection(vars[1..])
  }

  /** The string lines of `.data`: one `str_<line>` per pooled literal, in
      pool order, duplicates included. */
  function StringSection(pool: seq<PoolEntry>): (r: seq<DataDecl>)
    ensures |r| == |pool|
    ensures forall i :: 0 <= i < |pool| ==> r[i] == StrConst(pool[i].lineno, pool[i].text)
  {
    if |pool| == 0 then [] else [StrConst(pool[0].lineno, pool[0].text)] + StringSection(pool[1..])
  }

  /** Everything the translator prints that depends on the program: the
      `.bss` reservations, the string and variable lines of `.data`, and the
      code of `_start`. */
  datatype Translation = Translation(
    bss: seq<DataDecl>,
    strings: seq<DataDecl>,
    initialised: seq<DataDecl>,
    text: seq<Instr>)

  /** The first pass: output off, the whole program parsed once. */
  function Pass1(src: string): (r: Result<State>)
    ensures r.Ok? ==> r.value.code == [] && !r.value.output && r.value.tok == Eof
    ensures r.Ok? ==> TablesOk(r.value)
  {
    var s0 := Start(src, false);
    var s1 :- NextToken(s0);
    var r :- ParseProgram(s1);
    ExtendsTransitive(s0, s1, r);
    Ok(r)
  }

  /** `output = 1; input = program;`: nothing else is reset. */
  function Rewind(p: State, src: string): (r: State)
    ensures r.rest == src && r.output
    ensures r.vars == p.vars && r.pool == p.pool && r.code == p.code
    // The line-start flag, the current line and token, the IF bookkeeping
    // and the folding values all carry over from the first pass.
    ensures r.linenoStart == p.linenoStart && r.lineno == p.lineno && r.tok == p.tok
    ensures r.ifStatement == p.ifStatement && r.labelCounter == p.labelCounter
    ensures r.currentValue == p.currentValue && r.newValue == p.newValue
  {
    p.(rest := src, output := true)
  }

  /** The second pass, continuing from the state the first one ended in. */
  function Pass2(p1: State, src: string): (r: Result<State>)
    ensures r.Ok? ==> r.value.output && r.value.tok == Eof
    ensures r.Ok? ==> Extends(Rewind(p1, src), r.value)
  {
    var s0 := Rewind(p1, src);
    var s1 :- NextToken(s0);
    var r :- ParseProgram(s1);
    ExtendsTransitive(s0, s1, r);
    Ok(r)
  }

  /** The whole translation. The data sections come from the tables as the
      first pass left them, since they are printed before the second pass
      starts; the code is what the second pass emits. */
  function Translate(src: string): (r: Result<Translation>)
    ensures r.Ok? <==> Pass1(src).Ok? && Pass2(Pass1(src).value, src).Ok?
    ensures r.Fail? && Pass1(src).Fail? ==> r.error == Pass1(src).error
    ensures r.Ok? ==> r.value.bss == BssSection(Pass1(src).value.vars)
    ensures r.Ok? ==> r.value.strings == StringSection(Pass1(src).value.pool)
    ensures r.Ok? ==> r.value.initialised == InitSection(Pass1(src).value.vars)
    ensures r.Ok? ==> |r.value.bss| + |r.value.initialised| == |Pass1(src).value.vars| <= MaxVariables
    ensures r.Ok? ==> |r.value.strings| == |Pass1(src).value.pool| <= MaxStrings
    ensures r.Ok? ==> r.value.text == Pass2(Pass1(src).value, src).value.code
  {
    var p1 :- Pass1(src);
    var p2 :- Pass2(p1, src);
    SectionsPartition(p1.vars);
    Ok(Translation(BssSection(p1.vars), StringSection(p1.pool), InitSection(p1.vars), p2.code))
  }

  /** The data sections of a translation hold exactly the first pass's
      variables: the DIM-declared ones reserved in `.bss`, the others
      initialised in `.data`, and no variable in both. */
  lemma TranslatedSections(src: string, d: DataDecl)
    requires Translate(src).Ok?
    ensures var vars := Pass1(src).value.vars;
      && (d in Translate(src).value.bss <==> exists v :: v in vars && DeclaredOnly(v) && d == Reserve(v))
      && (d in Translate(src).value.initialised <==> exists v :: v in vars && !DeclaredOnly(v) && d == Initialise(v))
      && |Translate(src).value.bss| + |Translate(src).value.initialised| == |vars|
  {
    var vars := Pass1(src).value.vars;
    BssMembers(vars, d);
    InitMembers(vars, d);
    SectionsPartition(vars);
  }

  /** The line-start flag is not reset between the passes. If the first
      pass ends in the middle of a line (the source has no final newline),
      the second pass reads the program's first line number as a plain
      number, and the program is rejected as an invalid statement. */
  lemma MidLineRestart(p: State, n: nat, tail: string)
    requires !p.linenoStart && !p.ifStatement && !IsDigit(Peek(tail, 0))
    ensures Pass2(p, ShowNat(n) + tail) == Fail(InvalidStatement)
  {
    RestartReadsNumber(p, n, tail);
    var s1 := NextToken(Rewind(p, ShowNat(n) + tail)).value;
    assert ParseProgram(s1) == Fail(InvalidStatement);
  }

  lemma RestartReadsNumber(p: State, n: nat, tail: string)
    requires !p.linenoStart && !p.ifStatement && !IsDigit(Peek(tail, 0))
    ensures var r := NextToken(Rewind(p, ShowNat(n) + tail));
      r.Ok? && r.value.tok.Number? && !r.value.ifStatement
  {
    NumberLiteral(n, tail);
  }

  /** A string literal used as a factor loads `str_<k>`, where k is the
      literal's position in the pool; the data section labels that same
      entry `str_<line>` by the line it was pooled on. The two agree only
      when k happens to equal that line number. */
  lemma StringFactorLabel(s: State)
    requires s.tok.Str? && s.output && |s.pool| < MaxStrings
    ensures ParseFactor(s).Ok?
    ensures var r := ParseFactor(s).value;
      && r.code == s.code + [LeaString(|s.pool|)]
      && |s.pool| < |StringSection(r.pool)|
      && StringSection(r.pool)[|s.pool|] == StrConst(s.lineno, Truncate(s.tok.text, NameLimit))
  {
  }

  /** Every variable lands in exactly one of the two data sections. */
  lemma {:induction false} SectionsPartition(vars: seq<Variable>)
    ensures |BssSection(vars)| + |InitSection(vars)| == |vars|
  {
    if |vars| > 0 {
      SectionsPartition(vars[1..]);
    }
  }

  /** The layout of a table is the layout of its parts, one after the
      other: adding variables never reorders the lines already laid out. */
  lemma {:induction false} SectionsAppend(a: seq<Variable>, b: seq<Variable>)
    ensures BssSection(a + b) == BssSection(a) + BssSection(b)
    ensures InitSection(a + b) == InitSection(a) + InitSection(b)
  {
    if |a| > 0 {
      assert (a + b)[1..] == a[1..] + b;
      SectionsAppend(a[1..], b);
    } else {
      assert a + b == b;
    }
  }

  /** `.bss` holds exactly the reservations of the DIM-declared variables. */
  lemma {:induction false} BssMembers(vars: seq<Variable>, d: DataDecl)
    ensures d in BssSection(vars) <==> exists v :: v in vars && DeclaredOnly(v) && d == Reserve(v)
  {
    if |vars| > 0 {
      BssMembers(vars[1..], d);
      assert forall v :: v in vars <==> v == vars[0] || v in vars[1..];
    }
  }

  /** `.data` holds exactly the values of the LET-initialised variables. */
  lemma {:induction false} InitMembers(vars: seq<Variable>, d: DataDecl)
    ensures d in InitSection(vars) <==> exists v :: v in vars && !DeclaredOnly(v) && d == Initialise(v)
  {
    if |vars| > 0 {
      InitMembers(vars[1..], d);
      assert forall v :: v in vars <==> v == vars[0] || v in vars[1..];
    }
  }
}

=== FILE: expressions.dfy ===
/**
 * The expression parser: recursive descent over
 *
 *   expression := product (('+' | '-') product)*
 *   product    := factor (('*' | '/') factor)*
 *   factor     := NUMBER | STRING | IDENT
 *
 * emitting stack-machine code while it folds a constant into the globals
 * `current_value` and `new_value`. The folding is reproduced as written:
 * only numeric literals set `new_value`, `parse_product` and
 * `parse_expression` both overwrite `current_value` with it, and the product
 * loop does not read past its right factor, so it runs at most once and an
 * expression ends at that factor.
 */
module Expressions {
  import opened Basics
  import opened Tables
  import opened Scanner
  import opened Assembly
  import opened Context
  import opened Lexer

  predicate IsFactorToken(t: Token) {
    t.Number? || t.Str? || t.Ident?
  }

  /** `parse_factor`: load the current token's operand into rax without
      reading another token. Only a numeric literal changes `new_value`;
      only a string literal touches the pool; an identifier must already
      be declared. */
  function ParseFactor(s: State): (r: Result<State>)
    ensures r.Ok? <==> s.tok.Number? || s.tok.Str? || (s.tok.Ident? && FindVariable(s.vars, s.tok.name).Some?)
    ensures r.Fail? ==> r.error == (if s.tok.Ident? then UndefinedVariable else ExpectedFactor)
    ensures r.Ok? ==> r.value == s.(newValue := r.value.newValue, pool := r.value.pool, code := r.value.code)
    ensures r.Ok? ==> r.value.newValue == (if s.tok.Number? then s.tok.value else s.newValue)
    ensures r.Ok? ==> r.value.pool == (if s.tok.Str? then AddString(s.pool, s.lineno, s.tok.text) else s.pool)
    ensures r.Ok? ==> |r.value.code| == |s.code| + (if s.output then 1 else 0)
    ensures r.Ok? ==> Extends(s, r.value)
    // The one instruction: the literal itself, the address `str_<k>` where k
    // counts the literals pooled so far, or the variable under the name as
    // typed, by value for a number and by address for a string.
    ensures r.Ok? && s.output && s.tok.Number? ==> r.value.code == s.code + [MovImm(s.tok.value)]
    ensures r.Ok? && s.output && s.tok.Str? ==> r.value.code == s.code + [LeaString(|s.pool|)]
    ensures r.Ok? && s.output && s.tok.Ident? ==>
      var v := s.vars[FindVariable(s.vars, s.tok.name).value];
      r.value.code == s.code + [if v.payload.Num? then LoadNumber(s.tok.name) else LoadAddress(s.tok.name)]
  {
    if s.tok.Number? then
      Ok(Emit(s, MovImm(s.tok.value)).(newValue := s.tok.value))
    else if s.tok.Str? then
      var e := Emit(s, LeaString(|s.pool|));
      Ok(e.(pool := AddString(s.pool, s.lineno, s.tok.text)))
    else if s.tok.Ident? then
      match FindVariable(s.vars, s.tok.name)
      case Some(i) =>
        var load := if s.vars[i].payload.Num? then LoadNumber(s.tok.name) else LoadAddress(s.tok.name);
        Ok(Emit(s, load))
      case None => Fail(UndefinedVariable)
    else
      Fail(ExpectedFactor)
  }

  /** The frame shared by products and expressions: a parsing step that
      leaves the variable table and the IF bookkeeping alone. */
  predicate ExpressionStep(s: State, r: State) {
    Extends(s, r) && KeepsIfState(s, r) && r.vars == s.vars
  }

  lemma ExpressionStepTransitive(a: State, b: State, c: State)
    requires ExpressionStep(a, b) && ExpressionStep(b, c)
    ensures ExpressionStep(a, c)
  {
    ExtendsTransitive(a, b, c);
  }

  /** `current_value = new_value`. */
  function Refold(s: State): (r: State)
    ensures ExpressionStep(s, r) && r.rest == s.rest && r.tok == s.tok
    ensures r == s.(currentValue := s.newValue)
  {
    s.(currentValue := s.newValue)
  }

  /** `parse_product`: a factor, then the `*` / `/` loop. */
  function ParseProduct(s: State): (r: Result<State>)
    ensures r.Ok? ==> IsFactorToken(s.tok) && ExpressionStep(s, r.value)
    ensures r.Ok? ==> r.value.tok != Mul && r.value.tok != Div
  {
    var s1 :- ParseFactor(s);
    var s2 :- NextToken(s1);
    ExtendsTransitive(s, s1, s2);
    var s3 := Refold(s2);
    ExpressionStepTransitive(s, s2, s3);
    var r := ProductLoop(s3);
    if r.Ok? then ExpressionStepTransitive(s, s3, r.value); r else r
  }

  /** `push rax`: the left operand is saved on the stack. */
  function Push(s: State): (r: State)
    ensures ExpressionStep(s, r) && r.rest == s.rest && r.tok == s.tok
    ensures r == s.(code := r.code)
  {
    Emit(s, PushRax)
  }

  /** `mov rbx, rax` and `pop rax`: the right operand moves to rbx and the
      left one comes back from the stack. */
  function Unstack(s: State): (r: State)
    ensures ExpressionStep(s, r) && r.rest == s.rest && r.tok == s.tok
    ensures r == s.(code := r.code)
  {
    ExtendsTransitive(s, Emit(s, MovRbxRax), Emit(Emit(s, MovRbxRax), PopRax));
    Emit(Emit(s, MovRbxRax), PopRax)
  }

  /** Folding and emitting one `*` or `/`: `current_value` combines with
      `new_value`, by C's truncating division for `/`. */
  function Multiply(s: State, op: Token): (r: Result<State>)
    requires op == Mul || op == Div
    ensures r.Fail? <==> op == Div && s.newValue == 0
    ensures r.Fail? ==> r.error == DivisionByZero
    ensures r.Ok? ==> ExpressionStep(s, r.value) && r.value.rest == s.rest && r.value.tok == s.tok
    ensures r.Ok? ==> r.value == s.(currentValue := r.value.currentValue, code := r.value.code)
    ensures r.Ok? && op == Mul ==> r.value.currentValue == s.currentValue * s.newValue
    ensures r.Ok? && op == Div ==> r.value.currentValue == CDiv(s.currentValue, s.newValue)
  {
    if op == Mul then
      var t := s.(currentValue := s.currentValue * s.newValue);
      Ok(Emit(t, MulRbx))
    else if s.newValue == 0 then
      Fail(DivisionByZero)
    else
      var t := s.(currentValue := CDiv(s.currentValue, s.newValue));
      Ok(Emit(t, DivRbx))
  }

  /** One pass of the `while` loop of `parse_product`: the operator is
      read past, the right factor is parsed but not consumed. */
  function ProductStep(s: State): (r: Result<State>)
    requires s.tok == Mul || s.tok == Div
    ensures r.Ok? ==> ExpressionStep(s, r.value) && IsFactorToken(r.value.tok) && |r.value.rest| < |s.rest|
  {
    var s1 :- NextToken(s);
    var s2 := Push(s1);
    ExtendsTransitive(s, s1, s2);
    var s3 :- ParseFactor(s2);
    ExtendsTransitive(s, s2, s3);
    var s4 := Unstack(s3);
    ExpressionStepTransitive(s, s3, s4);
    var s5 :- Multiply(s4, s.tok);
    ExpressionStepTransitive(s, s4, s5);
    assert s1.tok != Eof;
    assert s5.rest == s4.rest == s3.rest == s2.rest == s1.rest;
    Ok(s5)
  }

  /** The `while` loop of `parse_product`. Its right factor is parsed but
      not consumed, so the loop test then sees that factor and stops. */
  function ProductLoop(s: State): (r: Result<State>)
    ensures r.Ok? ==> ExpressionStep(s, r.value)
    ensures r.Ok? && s.tok != Mul && s.tok != Div ==> r.value == s
    ensures r.Ok? && (s.tok == Mul || s.tok == Div) ==> IsFactorToken(r.value.tok)
    ensures r.Ok? ==> r.value.tok != Mul && r.value.tok != Div
    decreases |s.rest|
  {
    if s.tok == Mul || s.tok == Div then
      var s1 :- ProductStep(s);
      var r := ProductLoop(s1);
      if r.Ok? then ExpressionStepTransitive(s, s1, r.value); r else r
    else
      Ok(s)
  }

  /** `parse_expression`: a product, then the `+` / `-` loop. */
  function ParseExpression(s: State): (r: Result<State>)
    ensures r.Ok? ==> IsFactorToken(s.tok) && ExpressionStep(s, r.value)
    // An expression ends on a token that no operator rule can take.
    ensures r.Ok? ==> r.value.tok !in {Add, Sub, Mul, Div}
  {
    var s1 :- ParseProduct(s);
    var s2 := Refold(s1);
    ExpressionStepTransitive(s, s1, s2);
    var r := SumLoop(s2);
    if r.Ok? then ExpressionStepTransitive(s, s2, r.value); r else r
  }

  /** Folding and emitting one `+` or `-`. */
  function Accumulate(s: State, op: Token): (r: State)
    requires op == Add || op == Sub
    ensures ExpressionStep(s, r) && r.rest == s.rest && r.tok == s.tok
    ensures r == s.(currentValue := r.currentValue, code := r.code)
    ensures r.currentValue == if op == Add then s.currentValue + s.newValue else s.currentValue - s.newValue
  {
    var t := s.(currentValue := if op == Add then s.currentValue + s.newValue else s.currentValue - s.newValue);
    var i := if op == Add then AddRbx else SubRbx;
    Emit(t, i)
  }

  /** One pass of the `while` loop of `parse_expression`. */
  function SumStep(s: State): (r: Result<State>)
    requires s.tok == Add || s.tok == Sub
    ensures r.Ok? ==> ExpressionStep(s, r.value) && |r.value.rest| < |s.rest|
    ensures r.Ok? ==> r.value.tok != Mul && r.value.tok != Div
  {
    var s1 :- NextToken(s);
    var s2 := Push(s1);
    ExtendsTransitive(s, s1, s2);
    var s3 :- ParseProduct(s2);
    ExpressionStepTransitive(s, s2, s3);
    var s4 := Unstack(s3);
    ExpressionStepTransitive(s, s3, s4);
    var s5 := Accumulate(s4, s.tok);
    ExpressionStepTransitive(s, s4, s5);
    assert s1.tok != Eof;
    assert s2.rest == s1.rest;
    Ok(s5)
  }

  /** The `while` loop of `parse_expression`. */
  function SumLoop(s: State): (r: Result<State>)
    ensures r.Ok? ==> ExpressionStep(s, r.value)
    ensures r.Ok? && s.tok != Add && s.tok != Sub ==> r.value == s
    ensures r.Ok? ==> r.value.tok != Add && r.value.tok != Sub
    ensures r.Ok? && s.tok != Mul && s.tok != Div ==> r.value.tok != Mul && r.value.tok != Div
    decreases |s.rest|
  {
    if s.tok == Add || s.tok == Sub then
      var s1 :- SumStep(s);
      var r := SumLoop(s1);
      if r.Ok? then ExpressionStepTransitive(s, s1, r.value); r else r
    else
      Ok(s)
  }
}

=== FILE: folding.dfy ===
/**
 * What the expression parser records as the folded value of the simplest
 * expressions, and what it emits for them.
 *
 * The emitted stack-machine code computes `a op b` at run time. The folded
 * value is another matter: it is what LET records as the variable's initial
 * value in the data section, and because `current_value` is overwritten with
 * `new_value` after every product, it is not the value of the expression:
 * `a` folds to a, `a * b` and `a / b` to b, `a + b` to 2b and `a - b` to 0.
 *
 * The hypotheses describe the source text after the first literal by the
 * tokens it lexes to (`Lexes`), away from the start of a line.
 */
module Folding {
  import opened Basics
  import opened Tables
  import opened Scanner
  import opened Assembly
  import opened Context
  import opened Lexer
  import opened Expressions

  predicate IsOperator(t: Token) {
    t == Add || t == Sub || t == Mul || t == Div
  }

  // ---------------------------------------------------------------------
  // One-step facts
  // ---------------------------------------------------------------------

  /** A numeric literal factor loads the literal and becomes `new_value`. */
  lemma LiteralFactor(s: State, a: int)
    requires s.tok == Number(a)
    ensures ParseFactor(s) == Ok(Emit(s, MovImm(a)).(newValue := a))
  {
  }

  /** Reading a token that is not a line number changes only the cursor and
      the current token, and re-arms the line-start flag on a newline. */
  lemma TokenWithinLine(s: State, l: Lexeme)
    requires Scan(s.rest, s.linenoStart) == Ok(l) && !l.tok.LineNo?
    ensures NextToken(s) == Ok(s.(rest := l.rest, tok := l.tok, linenoStart := s.linenoStart || l.tok == Eol))
  {
  }

  /** The first token of a lexed sequence. */
  lemma LexesFirst(text: string, t: Token, toks: seq<Token>, tail: string)
    requires Lexes(text, [t] + toks, tail)
    ensures Scan(text, false).Ok? && Scan(text, false).value.tok == t
    ensures Lexes(Scan(text, false).value.rest, toks, tail)
  {
    assert ([t] + toks)[1..] == toks;
  }

  /** Without `*` or `/` the product loop does nothing. */
  lemma ProductLoopStops(s: State)
    requires s.tok != Mul && s.tok != Div
    ensures ProductLoop(s) == Ok(s)
  {
  }

  /** A product that starts with a literal: the literal is loaded and folded,
      and the loop runs on the token after it. */
  lemma ProductHeadLiteral(s: State, a: int, l: Lexeme)
    requires s.tok == Number(a) && !s.linenoStart
    requires Scan(s.rest, false) == Ok(l) && !l.tok.LineNo?
    ensures ParseProduct(s) == ProductLoop(Emit(s, MovImm(a)).(newValue := a, currentValue := a, rest := l.rest, tok := l.tok, linenoStart := l.tok == Eol))
  {
    LiteralFactor(s, a);
    TokenWithinLine(Emit(s, MovImm(a)).(newValue := a), l);
  }

  /** An expression is its first product followed by the sum loop. */
  lemma ExpressionUnfold(s: State, m: State)
    requires ParseProduct(s) == Ok(m)
    ensures ParseExpression(s) == SumLoop(Refold(m))
  {
  }

  /** Without `+` or `-` after it, an expression is its first product. */
  lemma ExpressionOfProduct(s: State, m: State)
    requires ParseProduct(s) == Ok(m) && m.tok != Add && m.tok != Sub
    ensures ParseExpression(s) == Ok(Refold(m))
  {
  }

  // ---------------------------------------------------------------------
  // `a` alone
  // ---------------------------------------------------------------------

  /** A single literal folds to itself, and only its load is emitted. */
  lemma FoldLiteral(s: State, a: int, t: Token, tail: string)
    requires s.tok == Number(a) && !s.linenoStart
    requires Lexes(s.rest, [t], tail) && !IsOperator(t)
    ensures ParseExpression(s).Ok?
    ensures var r := ParseExpression(s).value;
      r.currentValue == a && r.tok == t && r.rest == tail && r.lineno == s.lineno && r.linenoStart == (t == Eol)
      && r.code == s.code + (if s.output then [MovImm(a)] else [])
  {
    LexesFirst(s.rest, t, [], tail);
    var l := Scan(s.rest, false).value;
    var s3 := Emit(s, MovImm(a)).(newValue := a, currentValue := a, rest := l.rest, tok := t, linenoStart := t == Eol);
    ProductHeadLiteral(s, a, l);
    ProductLoopStops(s3);
    ExpressionOfProduct(s, s3);
  }

  // ---------------------------------------------------------------------
  // `a * b` and `a / b`
  // ---------------------------------------------------------------------

  /** The loop body on `op b`: read the literal, but not past it. */
  lemma ProductStepOnLiteral(s: State, b: int, tail: string)
    requires s.tok == Mul || s.tok == Div
    requires !s.linenoStart && Scan(s.rest, false) == Ok(Lexeme(Number(b), tail))
    ensures ProductStep(s) == Multiply(Unstack(Emit(Push(s.(rest := tail, tok := Number(b))), MovImm(b)).(newValue := b)), s.tok)
  {
    var t1 := s.(rest := tail, tok := Number(b));
    assert NextToken(s) == Ok(t1) by {
      TokenWithinLine(s, Scan(s.rest, false).value);
    }
    var p := Push(t1);
    assert ParseFactor(p) == Ok(Emit(p, MovImm(b)).(newValue := b)) by { LiteralFactor(p, b); }
  }

  /** What the loop body computes and emits once the literal is read. */
  lemma MultiplyLiteral(t1: State, op: Token, b: int)
    requires op == Mul || op == Div
    ensures var u := Unstack(Emit(Push(t1), MovImm(b)).(newValue := b));
      var r := Multiply(u, op);
      && (r.Fail? <==> op == Div && b == 0)
      && (r.Ok? ==>
        && r.value.currentValue == (if op == Mul then t1.currentValue * b else CDiv(t1.currentValue, b))
        && r.value.newValue == b && r.value.tok == t1.tok && r.value.rest == t1.rest
        && r.value.code == t1.code + (if t1.output then [PushRax, MovImm(b), MovRbxRax, PopRax, if op == Mul then MulRbx else DivRbx] else []))
  {
    var p := Push(t1);
    var f := Emit(p, MovImm(b)).(newValue := b);
    var u := Unstack(f);
    assert p.code == t1.code + (if t1.output then [PushRax] else []);
    assert f.code == p.code + (if t1.output then [MovImm(b)] else []);
    assert u.code == f.code + (if t1.output then [MovRbxRax, PopRax] else []);
    var i := if op == Mul then MulRbx else DivRbx;
    if Multiply(u, op).Ok? && t1.output {
      Append5(t1.code, PushRax, MovImm(b), MovRbxRax, PopRax, i);
    }
  }

  /** One pass of the product loop on `op b`. */
  lemma ProductStepLiteral(s: State, b: int, tail: string)
    requires s.tok == Mul || s.tok == Div
    requires !s.linenoStart && Scan(s.rest, false) == Ok(Lexeme(Number(b), tail))
    ensures ProductStep(s).Fail? <==> s.tok == Div && b == 0
    ensures ProductStep(s).Ok? ==> var r := ProductStep(s).value;
      && r.currentValue == (if s.tok == Mul then s.currentValue * b else CDiv(s.currentValue, b))
      && r.newValue == b && r.tok == Number(b) && r.rest == tail
      && r.code == s.code + (if s.output then [PushRax, MovImm(b), MovRbxRax, PopRax, if s.tok == Mul then MulRbx else DivRbx] else [])
  {
    ProductStepOnLiteral(s, b, tail);
    MultiplyLiteral(s.(rest := tail, tok := Number(b)), s.tok, b);
  }

  /** The product loop stops after one pass, on the literal it did not read
      past. */
  lemma ProductLoopOnce(s: State, m: State)
    requires s.tok == Mul || s.tok == Div
    requires ProductStep(s) == Ok(m) && m.tok.Number?
    ensures ProductLoop(s) == Ok(m)
  {
    ProductLoopStops(m);
  }

  /** `a * b` and `a / b` fold to b, not to the product or quotient the
      emitted code computes; dividing by a literal zero is refused. */
  lemma FoldProduct(s: State, a: int, op: Token, b: int, tail: string)
    requires s.tok == Number(a) && !s.linenoStart
    requires op == Mul || op == Div
    requires Lexes(s.rest, [op, Number(b)], tail)
    ensures ParseExpression(s).Fail? <==> op == Div && b == 0
    ensures ParseExpression(s).Ok? ==> var r := ParseExpression(s).value;
      && r.currentValue == b && r.tok == Number(b) && r.rest == tail && r.lineno == s.lineno
      && r.code == s.code + (if s.output then [MovImm(a), PushRax, MovImm(b), MovRbxRax, PopRax, if op == Mul then MulRbx else DivRbx] else [])
  {
    var l1 := Scan(s.rest, false).value;
    assert Scan(s.rest, false).Ok? && l1.tok == op && Scan(l1.rest, false) == Ok(Lexeme(Number(b), tail)) by {
      LexesFirst(s.rest, op, [Number(b)], tail);
      LexesFirst(l1.rest, Number(b), [], tail);
    }
    var s3 := Emit(s, MovImm(a)).(newValue := a, currentValue := a, rest := l1.rest, tok := op, linenoStart := false);
    assert ParseProduct(s) == ProductLoop(s3) by { ProductHeadLiteral(s, a, l1); }
    ProductStepLiteral(s3, b, tail);
    if op == Div && b == 0 {
      assert ProductLoop(s3).Fail?;
    } else {
      var m := ProductStep(s3).value;
      ProductLoopOnce(s3, m);
      ExpressionOfProduct(s, m);
      if s.output {
        assert s3.code == s.code + [MovImm(a)];
        Append6(s.code, MovImm(a), PushRax, MovImm(b), MovRbxRax, PopRax, if op == Mul then MulRbx else DivRbx);
      }
    }
  }

  // ---------------------------------------------------------------------
  // `a + b` and `a - b`
  // ---------------------------------------------------------------------

  /** The sum loop body on `op b t`: the right product is the literal b,
      which overwrites the running value before the operator is applied. */
  lemma SumStepOnLiteral(q: State, b: int, r2: string, t: Token, tail: string)
    requires q.tok == Add || q.tok == Sub
    requires !q.linenoStart && Scan(q.rest, false) == Ok(Lexeme(Number(b), r2))
    requires Scan(r2, false) == Ok(Lexeme(t, tail)) && t != Mul && t != Div
    ensures SumStep(q) == Ok(Accumulate(Unstack(Emit(Push(q.(rest := r2, tok := Number(b))), MovImm(b)).(newValue := b, currentValue := b, rest := tail, tok := t, linenoStart := t == Eol)), q.tok))
  {
    var t1 := q.(rest := r2, tok := Number(b));
    assert NextToken(q) == Ok(t1) by {
      TokenWithinLine(q, Scan(q.rest, false).value);
    }
    var p := Push(t1);
    var p3 := Emit(p, MovImm(b)).(newValue := b, currentValue := b, rest := tail, tok := t, linenoStart := t == Eol);
    assert ParseProduct(p) == Ok(p3) by {
      ProductHeadLiteral(p, b, Lexeme(t, tail));
      ProductLoopStops(p3);
    }
  }

  /** What the sum loop body computes and emits once the literal is read. */
  lemma AccumulateLiteral(t1: State, op: Token, b: int, tail: string, t: Token)
    requires op == Add || op == Sub
    ensures var r := Accumulate(Unstack(Emit(Push(t1), MovImm(b)).(newValue := b, currentValue := b, rest := tail, tok := t, linenoStart := t == Eol)), op);
      && r.currentValue == (if op == Add then b + b else 0)
      && r.tok == t && r.rest == tail
      && r.code == t1.code + (if t1.output then [PushRax, MovImm(b), MovRbxRax, PopRax, if op == Add then AddRbx else SubRbx] else [])
  {
    var p := Push(t1);
    var f := Emit(p, MovImm(b)).(newValue := b, currentValue := b, rest := tail, tok := t, linenoStart := t == Eol);
    var u := Unstack(f);
    assert p.code == t1.code + (if t1.output then [PushRax] else []);
    assert f.code == p.code + (if t1.output then [MovImm(b)] else []);
    assert u.code == f.code + (if t1.output then [MovRbxRax, PopRax] else []);
    if t1.output {
      Append5(t1.code, PushRax, MovImm(b), MovRbxRax, PopRax, if op == Add then AddRbx else SubRbx);
    }
  }

  /** `a + b` folds to 2b and `a - b` to 0, whatever a is. */
  lemma FoldSum(s: State, a: int, op: Token, b: int, t: Token, tail: string)
    requires s.tok == Number(a) && !s.linenoStart
    requires op == Add || op == Sub
    requires Lexes(s.rest, [op, Number(b), t], tail) && !IsOperator(t)
    ensures ParseExpression(s).Ok?
    ensures var r := ParseExpression(s).value;
      && r.currentValue == (if op == Add then b + b else 0) && r.tok == t && r.rest == tail && r.lineno == s.lineno
      && r.code == s.code + (if s.output then [MovImm(a), PushRax, MovImm(b), MovRbxRax, PopRax, if op == Add then AddRbx else SubRbx] else [])
  {
    var l1 := Scan(s.rest, false).value;
    var l2 := Scan(l1.rest, false).value;
    assert Scan(s.rest, false).Ok? && l1.tok == op && Scan(l1.rest, false).Ok? && l2.tok == Number(b)
      && Scan(l2.rest, false) == Ok(Lexeme(t, tail)) by {
      LexesFirst(s.rest, op, [Number(b), t], tail);
      LexesFirst(l1.rest, Number(b), [t], tail);
      LexesFirst(l2.rest, t, [], tail);
    }
    var s3 := Emit(s, MovImm(a)).(newValue := a, currentValue := a, rest := l1.rest, tok := op, linenoStart := false);
    assert ParseProduct(s) == Ok(s3) by {
      ProductHeadLiteral(s, a, l1);
      ProductLoopStops(s3);
    }
    var q := Refold(s3);
    ExpressionUnfold(s, s3);
    SumStepOnLiteral(q, b, l2.rest, t, tail);
    var t1 := q.(rest := l2.rest, tok := Number(b));
    AccumulateLiteral(t1, op, b, tail, t);
    var r := SumStep(q).value;
    assert SumLoop(q) == Ok(r) by {
      assert SumLoop(r) == Ok(r);
    }
    if s.output {
      assert t1.code == s.code + [MovImm(a)];
      Append6(s.code, MovImm(a), PushRax, MovImm(b), MovRbxRax, PopRax, if op == Add then AddRbx else SubRbx);
    }
  }

  // ---------------------------------------------------------------------
  // Sequence bookkeeping
  // ---------------------------------------------------------------------
  // Concatenation regrouped into the shape a caller's goal is written
  // in; these steps model nothing of the program itself.

  lemma Append2<T>(x: seq<T>, a: T, b: T)
    ensures x + [a] + [b] == x + [a, b]
  {
  }

  lemma Append5s<T>(x: seq<T>, a: T, b: T, c: T, d: T, e: T)
    ensures x + [a] + [b] + [c] + [d] + [e] == x + [a, b, c, d, e]
  {
  }

  lemma Append5<T>(x: seq<T>, a: T, b: T, c: T, d: T, e: T)
    ensures x + [a] + [b] + [c, d] + [e] == x + [a, b, c, d, e]
  {
  }

  lemma Append6<T>(x: seq<T>, a: T, b: T, c: T, d: T, e: T, f: T)
    ensures x + [a] + [b, c, d, e, f] == x + [a, b, c, d, e, f]
  {
  }
}

=== FILE: lexer.dfy ===
/**
 * `next_token`: reading one token and applying its side effects to the
 * translation context. A newline re-arms the line-start flag; a line number
 * becomes the current line, clears the flag and, while output is on, emits
 * the line's label at the very moment it is read.
 */
module Lexer {
  import opened Basics
  import opened Tables
  import opened Scanner
  import opened Assembly
  import opened Context

  function NextToken(s: State): (r: Result<State>)
    ensures r.Fail? <==> !Recognised(Peek(SkipBlanks(s.rest), 0))
    ensures r.Fail? ==> r.error == UnexpectedCharacter
    // Only the cursor, the token, the line bookkeeping and the code change.
    ensures r.Ok? ==> r.value == s.(rest := r.value.rest, tok := r.value.tok, linenoStart := r.value.linenoStart,
                                    lineno := r.value.lineno, code := r.value.code)
    ensures r.Ok? ==> Extends(s, r.value) && IsSuffix(r.value.rest, s.rest)
    ensures r.Ok? && r.value.tok != Eof ==> |r.value.rest| < |s.rest|
    // A line number is only read at the start of a line; it becomes the
    // current line, and its label is the only thing ever emitted here.
    ensures r.Ok? && r.value.tok.LineNo? ==> s.linenoStart && !r.value.linenoStart && r.value.lineno == r.value.tok.value
    ensures r.Ok? && !r.value.tok.LineNo? ==> r.value.lineno == s.lineno
    ensures r.Ok? ==> r.value.code == s.code + (if s.output && r.value.tok.LineNo? then [Label(r.value.tok.value)] else [])
    // A newline re-arms the line-start flag; every other token keeps it.
    ensures r.Ok? && r.value.tok == Eol ==> r.value.linenoStart
    ensures r.Ok? && r.value.tok != Eol && !r.value.tok.LineNo? ==> r.value.linenoStart == s.linenoStart
    // Numbers appear only away from the start of a line.
    ensures r.Ok? && r.value.tok.Number? ==> !s.linenoStart
    ensures r.Ok? && r.value.tok.Ident? ==> 1 <= |r.value.tok.name| <= NameLimit
    ensures r.Ok? && r.value.tok.Str? ==> |r.value.tok.text| <= NameLimit
  {
    var l :- Scan(s.rest, s.linenoStart);
    Ok(Advance(s, l))
  }

  /** The side effects of having read the token `l.tok`. */
  function Advance(s: State, l: Lexeme): (r: State)
    requires |l.rest| <= |s.rest|
    ensures r == s.(rest := l.rest, tok := l.tok, linenoStart := r.linenoStart, lineno := r.lineno, code := r.code)
    ensures Extends(s, r)
    ensures l.tok.LineNo? ==> !r.linenoStart && r.lineno == l.tok.value
    ensures !l.tok.LineNo? ==> r.lineno == s.lineno
    ensures r.code == s.code + (if s.output && l.tok.LineNo? then [Label(l.tok.value)] else [])
    ensures l.tok == Eol ==> r.linenoStart
    ensures l.tok != Eol && !l.tok.LineNo? ==> r.linenoStart == s.linenoStart
  {
    var r :=
      if l.tok == Eol then s.(rest := l.rest, tok := Eol, linenoStart := true)
      else if l.tok.LineNo? then
        s.(rest := l.rest, tok := l.tok, lineno := l.tok.value, linenoStart := false,
           code := if s.output then s.code + [Label(l.tok.value)] else s.code)
      else s.(rest := l.rest, tok := l.tok);
    TokenStepExtends(s, r);
    r
  }

  /** Reading a token leaves the tables and the output switch alone and at
      most appends to the code, so it is a parsing step. */
  lemma TokenStepExtends(s: State, r: State)
    requires r.vars == s.vars && r.pool == s.pool && r.output == s.output
    requires s.code <= r.code && (!s.output ==> r.code == s.code)
    requires |r.rest| <= |s.rest|
    ensures Extends(s, r)
  {
  }
}

=== FILE: scanner.dfy ===
/**
 * The pure half of the translator's tokenizer: given the unread text and
 * whether the reader stands at the start of a logical line, find the next
 * token and the text left after it. The side effects that go with reading a
 * token (line-start flag, current line number, line labels) live in `Lexer`.
 */
module Scanner {
  import opened Basics
  import opened Tables

  datatype Token =
    | LineNo(value: int)
    | Number(value: int)
    | Str(text: string)
    | Ident(name: string)
    | Print | Input | Dim | Let | Goto | If | Exit
    | Comma | Colon | Lt | Gt | Eq | Add | Sub | Mul | Div | LParen | RParen
    | Eol
    | Eof

  /** A token together with the text that follows it. */
  datatype Lexeme = Lexeme(tok: Token, rest: string)

  /** The keywords, in the order the tokenizer tries them. */
  const Keywords: seq<string> := ["PRINT", "INPUT", "DIM", "LET", "IF", "GOTO", "EXIT"]

  function KeywordToken(k: nat): Token
    requires k < |Keywords|
  {
    match k
    case 0 => Print
    case 1 => Input
    case 2 => Dim
    case 3 => Let
    case 4 => If
    case 5 => Goto
    case _ => Exit
  }

  /** `strncasecmp(s, kw, |kw|) == 0`: the text starts with the keyword, in
      any letter case. */
  predicate KeywordAt(s: string, kw: string) {
    |kw| <= |s| && SameIgnoringCase(s[..|kw|], kw)
  }

  /** The characters that end a string literal's body. */
  predicate EndsLiteral(c: char) {
    c == '"' || c == '\n' || c == '\0'
  }

  /** The single-character tokens. */
  function Punctuation(c: char): Option<Token> {
    match c
    case ',' => Some(Comma)
    case ':' => Some(Colon)
    case '<' => Some(Lt)
    case '>' => Some(Gt)
    case '=' => Some(Eq)
    case '+' => Some(Add)
    case '-' => Some(Sub)
    case '*' => Some(Mul)
    case '/' => Some(Div)
    case '(' => Some(LParen)
    case ')' => Some(RParen)
    case _ => None
  }

  /** The characters that can begin a token. */
  predicate Recognised(c: char) {
    c == '\0' || c == '\n' || IsDigit(c) || c == '"' || IsAlpha(c) || Punctuation(c).Some?
  }

  /** The text after the leading spaces and tabs. */
  function SkipBlanks(s: string): (t: string)
    ensures |t| <= |s| && s[|s| - |t|..] == t
    ensures forall i :: 0 <= i < |s| - |t| ==> IsBlank(s[i])
    ensures !IsBlank(Peek(t, 0))
    decreases |s|
  {
    if |s| > 0 && IsBlank(s[0]) then SkipBlanks(s[1..]) else s
  }

  /** Length of the run of leading digits. */
  function DigitCount(s: string): (n: nat)
    ensures n <= |s|
    ensures AllDigits(s[..n])
    ensures !IsDigit(Peek(s, n))
    decreases |s|
  {
    if |s| > 0 && IsDigit(s[0]) then 1 + DigitCount(s[1..]) else 0
  }

  /** Length of the run of leading letters, at most `cap`. */
  function LetterCount(s: string, cap: nat): (n: nat)
    ensures n <= cap && n <= |s|
    ensures forall i :: 0 <= i < n ==> IsAlpha(s[i])
    ensures n < cap ==> !IsAlpha(Peek(s, n))
    decreases cap
  {
    if cap == 0 || |s| == 0 || !IsAlpha(s[0]) then 0 else 1 + LetterCount(s[1..], cap - 1)
  }

  /** Length of a string literal's body, at most `cap` characters. */
  function BodyLength(s: string, cap: nat): (n: nat)
    ensures n <= cap && n <= |s|
    ensures forall i :: 0 <= i < n ==> !EndsLiteral(s[i])
    ensures n < cap ==> EndsLiteral(Peek(s, n))
    decreases cap
  {
    if cap == 0 || |s| == 0 || EndsLiteral(s[0]) then 0 else 1 + BodyLength(s[1..], cap - 1)
  }

  /** `strtol(s, &end, 10)` on text that starts with a digit or with a minus
      sign and a digit: the saturated value and the text after the digits. */
  function StrToL(s: string): (r: (int, string))
    requires IsDigit(Peek(s, 0)) || (Peek(s, 0) == '-' && IsDigit(Peek(s, 1)))
    ensures LongMin <= r.0 <= LongMax
    ensures |r.1| < |s| && s[|s| - |r.1|..] == r.1
  {
    var negative := s[0] == '-';
    var digits := if negative then s[1..] else s;
    var n := DigitCount(digits);
    var magnitude: int := Decimal(digits[..n]);
    assert digits[n..] == s[|s| - |digits[n..]|..];
    (ClampLong(if negative then -magnitude else magnitude), digits[n..])
  }

  /** The string literal whose body starts at `s` (just after the opening
      quote): at most 63 characters, the closing quote optional. */
  function ScanQuoted(s: string): (r: (string, string))
    ensures |r.0| <= NameLimit && |r.0| <= |s|
    // The body is the longest clean prefix, up to the cap.
    ensures r.0 == s[..|r.0|] && forall i :: 0 <= i < |r.0| ==> !EndsLiteral(r.0[i])
    ensures |r.0| < NameLimit ==> EndsLiteral(Peek(s, |r.0|))
    // A closing quote right after the body is consumed; anything else is left.
    ensures r.1 == if Peek(s, |r.0|) == '"' then s[|r.0| + 1..] else s[|r.0|..]
    ensures |r.1| <= |s| && s[|s| - |r.1|..] == r.1
  {
    var n := BodyLength(s, NameLimit);
    var after := s[n..];
    (s[..n], if Peek(after, 0) == '"' then after[1..] else after)
  }

  /** The first keyword that starts the text, if any. */
  function KeywordIndex(s: string): (r: Option<nat>)
    ensures r.Some? ==> r.value < |Keywords| && KeywordAt(s, Keywords[r.value])
    ensures r.Some? ==> forall k :: 0 <= k < r.value ==> !KeywordAt(s, Keywords[k])
    ensures r.None? ==> forall k :: 0 <= k < |Keywords| ==> !KeywordAt(s, Keywords[k])
  {
    if KeywordAt(s, "PRINT") then Some(0)
    else if KeywordAt(s, "INPUT") then Some(1)
    else if KeywordAt(s, "DIM") then Some(2)
    else if KeywordAt(s, "LET") then Some(3)
    else if KeywordAt(s, "IF") then Some(4)
    else if KeywordAt(s, "GOTO") then Some(5)
    else if KeywordAt(s, "EXIT") then Some(6)
    else None
  }

  /** `rest` is what is left of `s` after reading some prefix of it. */
  predicate IsSuffix(rest: string, s: string) {
    |rest| <= |s| && s[|s| - |rest|..] == rest
  }

  lemma SuffixTransitive(a: string, b: string, c: string)
    requires IsSuffix(a, b) && IsSuffix(b, c)
    ensures IsSuffix(a, c)
  {
    assert c[|c| - |a|..] == c[|c| - |b|..][|b| - |a|..];
  }

  /** A keyword, or else an identifier of at most 63 letters. */
  function ScanWord(t: string): (r: Lexeme)
    requires IsAlpha(Peek(t, 0))
    ensures IsSuffix(r.rest, t) && |r.rest| < |t|
    ensures !r.tok.LineNo? && !r.tok.Number? && !r.tok.Str? && r.tok != Eof
    ensures r.tok.Ident? ==>
      1 <= |r.tok.name| <= NameLimit && forall i :: 0 <= i < |r.tok.name| ==> IsAlpha(r.tok.name[i])
  {
    match KeywordIndex(t)
    case Some(k) =>
      Lexeme(KeywordToken(k), t[|Keywords[k]|..])
    case None =>
      var n := LetterCount(t, NameLimit);
      Lexeme(Ident(t[..n]), t[n..])
  }

  /** A numeral read by `strtol` and converted to `int`: a line number at
      the start of a line, a number anywhere else. */
  function Numeral(t: string, atLineStart: bool): (r: Lexeme)
    requires IsDigit(Peek(t, 0)) || (Peek(t, 0) == '-' && IsDigit(Peek(t, 1)))
    ensures IsSuffix(r.rest, t) && |r.rest| < |t|
    ensures atLineStart ==> r.tok.LineNo? && IntMin <= r.tok.value <= IntMax
    ensures !atLineStart ==> r.tok.Number? && IntMin <= r.tok.value <= IntMax
  {
    var (v, after) := StrToL(t);
    Lexeme(if atLineStart then LineNo(ToInt(v)) else Number(ToInt(v)), after)
  }

  /** The token at the start of `t`, which begins with no blank. */
  function ScanToken(t: string, atLineStart: bool): (r: Result<Lexeme>)
    ensures r.Ok? ==> IsSuffix(r.value.rest, t)
    ensures r.Ok? && r.value.tok != Eof ==> |r.value.rest| < |t|
    ensures r.Ok? && r.value.tok.LineNo? ==> atLineStart && IntMin <= r.value.tok.value <= IntMax
    ensures r.Ok? && r.value.tok.Number? ==> !atLineStart && IntMin <= r.value.tok.value <= IntMax
    ensures r.Ok? && r.value.tok.Ident? ==>
      1 <= |r.value.tok.name| <= NameLimit && forall i :: 0 <= i < |r.value.tok.name| ==> IsAlpha(r.value.tok.name[i])
    ensures r.Ok? && r.value.tok.Str? ==> |r.value.tok.text| <= NameLimit
    ensures r.Fail? <==> !Recognised(Peek(t, 0))
    ensures r.Fail? ==> r.error == UnexpectedCharacter
  {
    var c := Peek(t, 0);
    if c == '\0' then
      Ok(Lexeme(Eof, t))
    else if c == '\n' then
      Ok(Lexeme(Eol, t[1..]))
    else if !atLineStart && (IsDigit(c) || (c == '-' && IsDigit(Peek(t, 1)))) then
      Ok(Numeral(t, false))
    else if atLineStart && IsDigit(c) then
      Ok(Numeral(t, true))
    else if c == '"' then
      var (text, after) := ScanQuoted(t[1..]);
      SuffixTransitive(after, t[1..], t);
      Ok(Lexeme(Str(text), after))
    else if IsAlpha(c) then
      Ok(ScanWord(t))
    else match Punctuation(c)
      case Some(p) => Ok(Lexeme(p, t[1..]))
      case None => Fail(UnexpectedCharacter)
  }

  /** The next token of `input`. A run of digits is a line number at the
      start of a line and a (possibly negative) number anywhere else; a word
      starting with a keyword yields the keyword alone; anything else that
      no rule accepts is a fatal error. */
  function Scan(input: string, atLineStart: bool): (r: Result<Lexeme>)
    ensures r.Ok? ==> IsSuffix(r.value.rest, input)
    ensures r.Ok? && r.value.tok != Eof ==> |r.value.rest| < |input|
    ensures r.Ok? && r.value.tok.LineNo? ==> atLineStart && IntMin <= r.value.tok.value <= IntMax
    ensures r.Ok? && r.value.tok.Number? ==> !atLineStart && IntMin <= r.value.tok.value <= IntMax
    ensures r.Ok? && r.value.tok.Ident? ==>
      1 <= |r.value.tok.name| <= NameLimit && forall i :: 0 <= i < |r.value.tok.name| ==> IsAlpha(r.value.tok.name[i])
    ensures r.Ok? && r.value.tok.Str? ==> |r.value.tok.text| <= NameLimit
    ensures r.Fail? <==> !Recognised(Peek(SkipBlanks(input), 0))
    ensures r.Fail? ==> r.error == UnexpectedCharacter
  {
    var t := SkipBlanks(input);
    var r := ScanToken(t, atLineStart);
    if r.Ok? then SuffixTransitive(r.value.rest, t, input); r else r
  }

  /** `text`, read away from the start of a line, yields the tokens `toks`
      in order and leaves `tail` unread. */
  predicate Lexes(text: string, toks: seq<Token>, tail: string)
    decreases |toks|
  {
    if |toks| == 0 then text == tail
    else
      match Scan(text, false)
      case Ok(l) => l.tok == toks[0] && Lexes(l.rest, toks[1..], tail)
      case Fail(_) => false
  }
}

=== FILE: scanner_facts.dfy ===
/**
 * What the tokenizer reads back from text written in the language's own
 * spelling. `Spell` writes a token the way a BASIC program spells it; the
 * lemmas here show that `Scan` recovers the token and leaves exactly the
 * text after it, whenever the next character cannot be mistaken for a
 * continuation of the token (`Separated`).
 */
module ScannerFacts {
  import opened Basics
  import opened Tables
  import opened Scanner

  /** The spelling of a token in a program: keywords in upper case, numbers
      in decimal with a leading minus sign when negative, string literals
      between double quotes. The end of the input is spelled by nothing. */
  function Spell(t: Token): string {
    match t
    case LineNo(n) => if n < 0 then "-" + ShowNat(-n) else ShowNat(n)
    case Number(n) => if n < 0 then "-" + ShowNat(-n) else ShowNat(n)
    case Str(text) => "\"" + text + "\""
    case Ident(name) => name
    case Print => Keywords[0]
    case Input => Keywords[1]
    case Dim => Keywords[2]
    case Let => Keywords[3]
    case If => Keywords[4]
    case Goto => Keywords[5]
    case Exit => Keywords[6]
    case Comma => ","
    case Colon => ":"
    case Lt => "<"
    case Gt => ">"
    case Eq => "="
    case Add => "+"
    case Sub => "-"
    case Mul => "*"
    case Div => "/"
    case LParen => "("
    case RParen => ")"
    case Eol => "\n"
    case Eof => ""
  }

  /** The index of a keyword token in `Keywords`. */
  function KeywordOf(t: Token): Option<nat> {
    match t
    case Print => Some(0)
    case Input => Some(1)
    case Dim => Some(2)
    case Let => Some(3)
    case If => Some(4)
    case Goto => Some(5)
    case Exit => Some(6)
    case _ => None
  }

  /** No keyword begins the word, in any letter case. */
  predicate NoKeywordPrefix(w: string) {
    forall k :: 0 <= k < |Keywords| ==> !KeywordAt(w, Keywords[k])
  }

  /** The tokens a program can spell at the given position: line numbers
      only at the start of a line and numbers only elsewhere, both within
      the range of `int`; string literals short enough to be kept whole and
      free of a quote, newline or NUL; identifiers of letters, short enough
      to be kept whole and not starting with a keyword. */
  predicate Spellable(t: Token, atLineStart: bool) {
    match t
    case LineNo(n) => atLineStart && 0 <= n <= IntMax
    case Number(n) => !atLineStart && IntMin <= n <= IntMax
    case Str(text) => |text| <= NameLimit && forall i :: 0 <= i < |text| ==> !EndsLiteral(text[i])
    case Ident(name) =>
      && 1 <= |name| <= NameLimit
      && (forall i :: 0 <= i < |name| ==> IsAlpha(name[i]))
      && NoKeywordPrefix(name)
    case Sub => true
    case Eof => false
    case _ => true
  }

  /** The text after a token does not continue it: no digit after a number
      or a minus sign, no letter after an identifier. */
  predicate Separated(t: Token, tail: string) {
    match t
    case LineNo(_) => !IsDigit(Peek(tail, 0))
    case Number(_) => !IsDigit(Peek(tail, 0))
    case Ident(_) => !IsAlpha(Peek(tail, 0))
    case Sub => !IsDigit(Peek(tail, 0))
    case _ => true
  }

  // ---------------------------------------------------------------------
  // Runs of characters
  // ---------------------------------------------------------------------

  /** Leading blanks are skipped. */
  lemma {:induction false} SkipsBlanks(b: string, t: string)
    requires forall i :: 0 <= i < |b| ==> IsBlank(b[i])
    ensures SkipBlanks(b + t) == SkipBlanks(t)
    decreases |b|
  {
    if |b| == 0 {
      assert b + t == t;
    } else {
      assert (b + t)[1..] == b[1..] + t;
      SkipsBlanks(b[1..], t);
    }
  }

  /** Blanks before a token change nothing about what is read. */
  lemma LeadingBlanks(b: string, t: string, atLineStart: bool)
    requires forall i :: 0 <= i < |b| ==> IsBlank(b[i])
    ensures Scan(b + t, atLineStart) == Scan(t, atLineStart)
  {
    SkipsBlanks(b, t);
  }

  /** A run of digits ends where the digits end. */
  lemma {:induction false} DigitRun(ds: string, tail: string)
    requires AllDigits(ds) && !IsDigit(Peek(tail, 0))
    ensures DigitCount(ds + tail) == |ds|
    decreases |ds|
  {
    if |ds| == 0 {
      assert ds + tail == tail;
    } else {
      assert (ds + tail)[1..] == ds[1..] + tail;
      DigitRun(ds[1..], tail);
    }
  }

  /** A run of letters ends where the letters end, or at the cap. */
  lemma {:induction false} LetterRun(w: string, tail: string, cap: nat)
    requires forall i :: 0 <= i < |w| ==> IsAlpha(w[i])
    requires !IsAlpha(Peek(tail, 0))
    ensures LetterCount(w + tail, cap) == if |w| <= cap then |w| else cap
    decreases cap
  {
    if |w| == 0 {
      assert w + tail == tail;
    } else if cap > 0 {
      assert (w + tail)[1..] == w[1..] + tail;
      LetterRun(w[1..], tail, cap - 1);
    }
  }

  /** A literal's body ends at its closing quote. */
  lemma {:induction false} BodyRun(body: string, tail: string, cap: nat)
    requires |body| <= cap
    requires forall i :: 0 <= i < |body| ==> !EndsLiteral(body[i])
    requires EndsLiteral(Peek(tail, 0))
    ensures BodyLength(body + tail, cap) == |body|
    decreases cap
  {
    if |body| == 0 {
      assert body + tail == tail;
    } else {
      assert (body + tail)[1..] == body[1..] + tail;
      BodyRun(body[1..], tail, cap - 1);
    }
  }

  // ---------------------------------------------------------------------
  // Numbers
  // ---------------------------------------------------------------------

  /** Reading starts at once on text that does not begin with a blank. */
  lemma ScanUnblanked(s: string, atLineStart: bool)
    requires !IsBlank(Peek(s, 0))
    ensures Scan(s, atLineStart) == ScanToken(s, atLineStart)
  {
    assert SkipBlanks(s) == s;
  }

  /** `strtol` on any run of digits, leading zeros included, reads its
      decimal value, saturated at the range of `long`, and stops after the
      digits. */
  lemma StrToLOfDigits(ds: string, tail: string)
    requires |ds| > 0 && AllDigits(ds) && !IsDigit(Peek(tail, 0))
    ensures IsDigit(Peek(ds + tail, 0))
    ensures StrToL(ds + tail) == (ClampLong(Decimal(ds)), tail)
  {
    var s := ds + tail;
    assert s[0] == ds[0];
    DigitRun(ds, tail);
    assert s[..|ds|] == ds;
  }

  /** The same for a minus sign followed by a run of digits of value m. */
  lemma StrToLOfNegativeDigits(ds: string, tail: string, m: nat)
    requires |ds| > 0 && AllDigits(ds) && !IsDigit(Peek(tail, 0)) && m == Decimal(ds)
    ensures StrToL("-" + (ds + tail)) == (ClampLong(-(m as int)), tail)
  {
    var q := ds + tail;
    assert q[0] == ds[0];
    MinusStrToL(q);
    DigitRun(ds, tail);
    assert q[..|ds|] == ds && q[|ds|..] == tail;
  }

  /** `strtol` after a minus sign reads the digits that follow it and
      negates their value. */
  lemma MinusStrToL(q: string)
    requires IsDigit(Peek(q, 0))
    ensures StrToL("-" + q) == (ClampLong(-(Decimal(q[..DigitCount(q)]) as int)), q[DigitCount(q)..])
  {
    assert ("-" + q)[1..] == q;
  }

  /** A numeral is read by `strtol`, then wrapped to `int`; at the start of
      a line it is a line number. */
  lemma StrToLScans(t: string, atLineStart: bool, v: int, rest: string)
    requires IsDigit(Peek(t, 0)) || (!atLineStart && Peek(t, 0) == '-' && IsDigit(Peek(t, 1)))
    requires StrToL(t) == (v, rest)
    ensures Scan(t, atLineStart) == Ok(Lexeme(if atLineStart then LineNo(ToInt(v)) else Number(ToInt(v)), rest))
  {
    ScanUnblanked(t, atLineStart);
  }

  /** On the canonical spelling of n, `strtol` reads n back. */
  lemma StrToLOfDecimal(n: nat, tail: string)
    requires !IsDigit(Peek(tail, 0))
    ensures IsDigit(Peek(ShowNat(n) + tail, 0))
    ensures StrToL(ShowNat(n) + tail) == (ClampLong(n), tail)
  {
    StrToLOfDigits(ShowNat(n), tail);
    DecimalOfShowNat(n);
  }

  /** The same for a minus sign followed by the canonical spelling. */
  lemma StrToLOfNegative(n: nat, tail: string)
    requires !IsDigit(Peek(tail, 0))
    ensures Peek("-" + ShowNat(n) + tail, 0) == '-' && IsDigit(Peek("-" + ShowNat(n) + tail, 1))
    ensures StrToL("-" + ShowNat(n) + tail) == (ClampLong(-(n as int)), tail)
  {
    var s := "-" + ShowNat(n) + tail;
    Regroup3("-", ShowNat(n), tail);
    assert s[0] == '-' && s[1] == ShowNat(n)[0];
    DecimalOfShowNat(n);
    StrToLOfNegativeDigits(ShowNat(n), tail, n);
  }

  /** Any run of digits away from the start of a line is a number literal
      whose value is the run's, saturated and wrapped. */
  lemma DigitsLiteral(ds: string, tail: string)
    requires |ds| > 0 && AllDigits(ds) && !IsDigit(Peek(tail, 0))
    ensures Scan(ds + tail, false) == Ok(Lexeme(Number(ToInt(ClampLong(Decimal(ds)))), tail))
  {
    StrToLOfDigits(ds, tail);
    StrToLScans(ds + tail, false, ClampLong(Decimal(ds)), tail);
  }

  /** At the start of a line the same run of digits is a line number. */
  lemma DigitsLineNumber(ds: string, tail: string)
    requires |ds| > 0 && AllDigits(ds) && !IsDigit(Peek(tail, 0))
    ensures Scan(ds + tail, true) == Ok(Lexeme(LineNo(ToInt(ClampLong(Decimal(ds)))), tail))
  {
    StrToLOfDigits(ds, tail);
    StrToLScans(ds + tail, true, ClampLong(Decimal(ds)), tail);
  }

  /** A minus sign and any run of digits of value m, away from the start
      of a line. */
  lemma NegativeDigits(ds: string, tail: string, m: nat)
    requires |ds| > 0 && AllDigits(ds) && !IsDigit(Peek(tail, 0)) && m == Decimal(ds)
    ensures Scan("-" + ds + tail, false) == Ok(Lexeme(Number(ToInt(ClampLong(-(m as int)))), tail))
  {
    var s := "-" + ds + tail;
    Regroup3("-", ds, tail);
    assert s[0] == '-' && s[1] == ds[0];
    StrToLOfNegativeDigits(ds, tail, m);
    StrToLScans(s, false, ClampLong(-(m as int)), tail);
  }

  /** A line number written with leading zeros, like `0010`, is the same
      line as without them. */
  lemma PaddedLineNumber(z: string, n: nat, tail: string)
    requires forall i :: 0 <= i < |z| ==> z[i] == '0'
    requires !IsDigit(Peek(tail, 0))
    ensures Scan(z + ShowNat(n) + tail, true) == Ok(Lexeme(LineNo(ToInt(ClampLong(n))), tail))
  {
    LeadingZeros(z, ShowNat(n));
    DecimalOfShowNat(n);
    Regroup3(z, ShowNat(n), tail);
    DigitsLineNumber(z + ShowNat(n), tail);
  }

  /** A decimal numeral away from the start of a line is a number literal:
      the value `strtol` gives, saturated to `long` and then wrapped to the
      32 bits of `int`. */
  lemma NumberLiteral(n: nat, tail: string)
    requires !IsDigit(Peek(tail, 0))
    ensures Scan(ShowNat(n) + tail, false) == Ok(Lexeme(Number(ToInt(ClampLong(n))), tail))
  {
    StrToLOfDecimal(n, tail);
    ScanUnblanked(ShowNat(n) + tail, false);
  }

  /** A minus sign directly followed by digits, away from the start of a
      line, is a negative number literal rather than a subtraction. */
  lemma NegativeLiteral(n: nat, tail: string)
    requires !IsDigit(Peek(tail, 0))
    ensures Scan("-" + ShowNat(n) + tail, false) == Ok(Lexeme(Number(ToInt(ClampLong(-(n as int)))), tail))
  {
    StrToLOfNegative(n, tail);
    ScanUnblanked("-" + ShowNat(n) + tail, false);
  }

  /** Away from the start of a line a minus sign sticks to the digits
      after it: `10-3` is the number 10 followed by the number -3, not a
      subtraction. */
  lemma MinusJoinsNumber(a: nat, n: int, tail: string)
    requires a <= IntMax && IntMin <= n < 0 && !IsDigit(Peek(tail, 0))
    ensures Scan(ShowNat(a) + Spell(Number(n)) + tail, false) == Ok(Lexeme(Number(a), Spell(Number(n)) + tail))
    ensures Scan(Spell(Number(n)) + tail, false) == Ok(Lexeme(Number(n), tail))
  {
    NumberBeforeMinus(a, n, tail);
    NegativeScans(n, tail);
  }

  lemma NumberBeforeMinus(a: nat, n: int, tail: string)
    requires a <= IntMax && n < 0
    ensures Scan(ShowNat(a) + Spell(Number(n)) + tail, false) == Ok(Lexeme(Number(a), Spell(Number(n)) + tail))
  {
    MinusLeads(n, tail);
    Regroup3(ShowNat(a), Spell(Number(n)), tail);
    NumberLiteral(a, Spell(Number(n)) + tail);
    ToIntKeepsIntValues(a);
  }

  lemma MinusLeads(n: int, tail: string)
    requires n < 0
    ensures !IsDigit(Peek(Spell(Number(n)) + tail, 0))
  {
    assert Spell(Number(n)) == "-" + ShowNat(-n);
    assert (Spell(Number(n)) + tail)[0] == '-';
  }

  /** A decimal numeral at the start of a line is a line number, saturated
      and wrapped the same way. */
  lemma LineNumberLiteral(n: nat, tail: string)
    requires !IsDigit(Peek(tail, 0))
    ensures Scan(ShowNat(n) + tail, true) == Ok(Lexeme(LineNo(ToInt(ClampLong(n))), tail))
  {
    StrToLOfDecimal(n, tail);
    ScanUnblanked(ShowNat(n) + tail, true);
  }

  /** Beyond the range of `int` a literal wraps around: `2^32 + m` reads
      as `m`. */
  lemma NumberWraps(m: nat, tail: string)
    requires m <= IntMax && !IsDigit(Peek(tail, 0))
    ensures Scan(ShowNat(0x1_0000_0000 + m) + tail, false) == Ok(Lexeme(Number(m), tail))
  {
    NumberLiteral(0x1_0000_0000 + m, tail);
    WrapValue(m);
  }

  lemma WrapValue(m: nat)
    requires m <= IntMax
    ensures ToInt(ClampLong(0x1_0000_0000 + m)) == m
  {
    var x := m - IntMin;
    assert ClampLong(0x1_0000_0000 + m) == 0x1_0000_0000 + m;
    assert 0 <= x < 0x1_0000_0000;
    assert (0x1_0000_0000 + x) % 0x1_0000_0000 == x;
  }

  // ---------------------------------------------------------------------
  // Words
  // ---------------------------------------------------------------------

  /** A keyword's first letter tells it apart from every keyword before it,
      except `IF`, which is told apart from `INPUT` by its second. */
  lemma KeywordsDiffer(s: string, k: nat, j: nat)
    requires j < k < |Keywords| && KeywordAt(s, Keywords[k])
    ensures !KeywordAt(s, Keywords[j])
  {
    KeywordLetter(s, Keywords[j], 0);
    KeywordLetter(s, Keywords[k], 0);
    KeywordLetter(s, Keywords[j], 1);
    KeywordLetter(s, Keywords[k], 1);
  }

  /** A text that starts with a keyword agrees with it letter by letter. */
  lemma KeywordLetter(s: string, kw: string, i: nat)
    ensures KeywordAt(s, kw) && i < |kw| ==> Lower(s[i]) == Lower(kw[i])
  {
    if KeywordAt(s, kw) && i < |kw| {
      assert s[..|kw|][i] == s[i];
    }
  }

  /** A keyword, in any letter case, is read as that keyword whatever
      follows it: `PRINTX` is `PRINT` followed by `X`. */
  lemma KeywordLiteral(w: string, k: nat, tail: string, atLineStart: bool)
    requires k < |Keywords| && SameIgnoringCase(w, Keywords[k])
    ensures Scan(w + tail, atLineStart) == Ok(Lexeme(KeywordToken(k), tail))
  {
    KeywordFound(w, k, tail);
    ScanUnblanked(w + tail, atLineStart);
    ScanTokenWord(w + tail, atLineStart);
    assert (w + tail)[|Keywords[k]|..] == tail;
  }

  /** Text that starts with a letter is read as a word. */
  lemma ScanTokenWord(s: string, atLineStart: bool)
    requires IsAlpha(Peek(s, 0))
    ensures ScanToken(s, atLineStart) == Ok(ScanWord(s))
  {
  }

  /** The keyword search stops at the keyword the word spells. */
  lemma KeywordFound(w: string, k: nat, tail: string)
    requires k < |Keywords| && SameIgnoringCase(w, Keywords[k])
    ensures IsAlpha(Peek(w + tail, 0))
    ensures KeywordIndex(w + tail) == Some(k)
  {
    var s := w + tail;
    assert s[..|w|] == w;
    assert KeywordAt(s, Keywords[k]);
    forall j | 0 <= j < k
      ensures !KeywordAt(s, Keywords[j])
    {
      KeywordsDiffer(s, k, j);
    }
    assert Lower(s[0]) == Lower(Keywords[k][0]);
  }

  /** No keyword reaches past a word into text that does not start with a
      letter. */
  lemma NoKeywordAcross(w: string, tail: string)
    requires NoKeywordPrefix(w) && !IsAlpha(Peek(tail, 0))
    ensures NoKeywordPrefix(w + tail)
  {
    forall k | 0 <= k < |Keywords|
      ensures !KeywordAt(w + tail, Keywords[k])
    {
      var kw := Keywords[k];
      if |kw| <= |w| {
        assert (w + tail)[..|kw|] == w[..|kw|];
      } else {
        KeywordLetter(w + tail, kw, |w|);
      }
    }
  }

  /** A word of letters that starts with no keyword is an identifier, cut
      to its first 63 letters; what is cut off is read next. */
  lemma IdentifierLiteral(w: string, tail: string, atLineStart: bool)
    requires 1 <= |w| && forall i :: 0 <= i < |w| ==> IsAlpha(w[i])
    requires NoKeywordPrefix(w) && !IsAlpha(Peek(tail, 0))
    ensures var n := if |w| <= NameLimit then |w| else NameLimit;
      Scan(w + tail, atLineStart) == Ok(Lexeme(Ident(w[..n]), w[n..] + tail))
  {
    assert (w + tail)[0] == w[0];
    ScanUnblanked(w + tail, atLineStart);
    IdentifierWord(w, tail);
  }

  /** The word part of `IdentifierLiteral`. */
  lemma IdentifierWord(w: string, tail: string)
    requires 1 <= |w| && forall i :: 0 <= i < |w| ==> IsAlpha(w[i])
    requires NoKeywordPrefix(w) && !IsAlpha(Peek(tail, 0))
    ensures IsAlpha(Peek(w + tail, 0))
    ensures var n := if |w| <= NameLimit then |w| else NameLimit;
      ScanWord(w + tail) == Lexeme(Ident(w[..n]), w[n..] + tail)
  {
    var s := w + tail;
    assert s[0] == w[0];
    NoKeywordAcross(w, tail);
    assert KeywordIndex(s).None?;
    LetterRun(w, tail, NameLimit);
    var n := if |w| <= NameLimit then |w| else NameLimit;
    assert s[..n] == w[..n] && s[n..] == w[n..] + tail;
  }

  // ---------------------------------------------------------------------
  // String literals
  // ---------------------------------------------------------------------

  /** A quoted literal of at most 63 characters is read whole, and its
      closing quote is consumed. */
  lemma StringLiteral(body: string, tail: string, atLineStart: bool)
    requires |body| <= NameLimit && forall i :: 0 <= i < |body| ==> !EndsLiteral(body[i])
    ensures Scan("\"" + body + "\"" + tail, atLineStart) == Ok(Lexeme(Str(body), tail))
  {
    Regroup("\"", body, "\"", tail);
    QuoteToken(body + ("\"" + tail), atLineStart);
    QuotedClosed(body, tail);
  }

  lemma QuotedClosed(body: string, tail: string)
    requires |body| <= NameLimit && forall i :: 0 <= i < |body| ==> !EndsLiteral(body[i])
    ensures ScanQuoted(body + ("\"" + tail)) == (body, tail)
  {
    var q := body + ("\"" + tail);
    BodyRun(body, "\"" + tail, NameLimit);
    assert q[..|body|] == body;
    assert q[|body|..] == "\"" + tail;
  }

  /** A literal whose body runs into a newline or the end of the text is
      still a string: the body is kept and the newline is left unread. */
  lemma UnterminatedLiteral(body: string, tail: string, atLineStart: bool)
    requires |body| <= NameLimit && forall i :: 0 <= i < |body| ==> !EndsLiteral(body[i])
    requires EndsLiteral(Peek(tail, 0)) && Peek(tail, 0) != '"'
    ensures Scan("\"" + body + tail, atLineStart) == Ok(Lexeme(Str(body), tail))
  {
    Regroup3("\"", body, tail);
    QuoteToken(body + tail, atLineStart);
    QuotedEnds(body, tail);
  }

  lemma QuotedEnds(body: string, tail: string)
    requires |body| <= NameLimit && forall i :: 0 <= i < |body| ==> !EndsLiteral(body[i])
    requires EndsLiteral(Peek(tail, 0)) && Peek(tail, 0) != '"'
    ensures ScanQuoted(body + tail) == (body, tail)
  {
    BodyRun(body, tail, NameLimit);
    assert (body + tail)[..|body|] == body;
    assert (body + tail)[|body|..] == tail;
  }

  /** A literal of more than 63 characters is cut after 63; the rest of it
      is read again as ordinary tokens. */
  lemma LongLiteral(body: string, tail: string, atLineStart: bool)
    requires NameLimit < |body| && forall i :: 0 <= i < |body| ==> !EndsLiteral(body[i])
    ensures Scan("\"" + body + tail, atLineStart) == Ok(Lexeme(Str(body[..NameLimit]), body[NameLimit..] + tail))
  {
    Regroup3("\"", body, tail);
    QuoteToken(body + tail, atLineStart);
    QuotedCut(body, tail);
  }

  /** Text that starts with a quote is read as a string literal. */
  lemma QuoteToken(q: string, atLineStart: bool)
    ensures Scan("\"" + q, atLineStart) == Ok(Lexeme(Str(ScanQuoted(q).0), ScanQuoted(q).1))
  {
    var s := "\"" + q;
    assert s[0] == '"' && s[1..] == q;
    ScanUnblanked(s, atLineStart);
  }

  lemma QuotedCut(body: string, tail: string)
    requires NameLimit < |body| && forall i :: 0 <= i < |body| ==> !EndsLiteral(body[i])
    ensures ScanQuoted(body + tail) == (body[..NameLimit], body[NameLimit..] + tail)
  {
    var q := ScanQuoted(body + tail);
    assert (body + tail)[NameLimit] == body[NameLimit];
    assert |q.0| == NameLimit;
    assert q.0 == body[..NameLimit];
    assert q.1 == body[NameLimit..] + tail;
  }

  // ---------------------------------------------------------------------
  // Every token
  // ---------------------------------------------------------------------

  /** A punctuation character is read as its token, unless it is a minus
      sign that starts a negative number. */
  lemma PunctuationLiteral(c: char, tail: string, atLineStart: bool)
    requires Punctuation(c).Some? && (c == '-' && !atLineStart ==> !IsDigit(Peek(tail, 0)))
    ensures Scan([c] + tail, atLineStart) == Ok(Lexeme(Punctuation(c).value, tail))
  {
    var s := [c] + tail;
    assert s[0] == c && s[1..] == tail && Peek(s, 1) == Peek(tail, 0);
    ScanUnblanked(s, atLineStart);
    PunctuationToken(s, atLineStart);
  }

  /** The punctuation branch of the tokenizer. */
  lemma PunctuationToken(s: string, atLineStart: bool)
    requires Punctuation(Peek(s, 0)).Some? && (Peek(s, 0) == '-' && !atLineStart ==> !IsDigit(Peek(s, 1)))
    ensures |s| > 0 && ScanToken(s, atLineStart) == Ok(Lexeme(Punctuation(s[0]).value, s[1..]))
  {
    var c := Peek(s, 0);
    assert c != '\0' && c != '\n' && !IsDigit(c) && c != '"' && !IsAlpha(c);
  }

  /** A newline is read as the end of a line. */
  lemma NewlineLiteral(tail: string, atLineStart: bool)
    ensures Scan("\n" + tail, atLineStart) == Ok(Lexeme(Eol, tail))
  {
    var s := "\n" + tail;
    assert s[0] == '\n' && s[1..] == tail;
    ScanUnblanked(s, atLineStart);
  }

  /** Every spellable token is read back from its spelling, leaving exactly
      the text after it. */
  lemma SpellScans(t: Token, tail: string, atLineStart: bool)
    requires Spellable(t, atLineStart) && Separated(t, tail)
    ensures Scan(Spell(t) + tail, atLineStart) == Ok(Lexeme(t, tail))
  {
    if t.LineNo? || t.Number? {
      NumeralScans(t, tail, atLineStart);
    } else if t.Str? || t.Ident? {
      WordScans(t, tail, atLineStart);
    } else if t == Eol {
      NewlineLiteral(tail, atLineStart);
    } else {
      SymbolScans(t, tail, atLineStart);
    }
  }

  /** String literals and identifiers that are kept whole. */
  lemma WordScans(t: Token, tail: string, atLineStart: bool)
    requires (t.Str? || t.Ident?) && Spellable(t, atLineStart) && Separated(t, tail)
    ensures Scan(Spell(t) + tail, atLineStart) == Ok(Lexeme(t, tail))
  {
    if t.Str? {
      StringLiteral(t.text, tail, atLineStart);
    } else {
      IdentifierScans(t.name, tail, atLineStart);
    }
  }

  lemma IdentifierScans(w: string, tail: string, atLineStart: bool)
    requires 1 <= |w| <= NameLimit && forall i :: 0 <= i < |w| ==> IsAlpha(w[i])
    requires NoKeywordPrefix(w) && !IsAlpha(Peek(tail, 0))
    ensures Scan(w + tail, atLineStart) == Ok(Lexeme(Ident(w), tail))
  {
    IdentifierLiteral(w, tail, atLineStart);
    assert w[..|w|] == w && w[|w|..] + tail == tail;
  }

  /** Line numbers and number literals within the range of `int`. */
  lemma NumeralScans(t: Token, tail: string, atLineStart: bool)
    requires (t.LineNo? || t.Number?) && Spellable(t, atLineStart) && Separated(t, tail)
    ensures Scan(Spell(t) + tail, atLineStart) == Ok(Lexeme(t, tail))
  {
    var n := t.value;
    if t.LineNo? {
      LineNumberScans(n, tail);
    } else if n < 0 {
      NegativeScans(n, tail);
    } else {
      NumberScans(n, tail);
    }
  }

  lemma LineNumberScans(n: nat, tail: string)
    requires n <= IntMax && !IsDigit(Peek(tail, 0))
    ensures Scan(Spell(LineNo(n)) + tail, true) == Ok(Lexeme(LineNo(n), tail))
  {
    LineNumberLiteral(n, tail);
    ToIntKeepsIntValues(n);
  }

  lemma NumberScans(n: nat, tail: string)
    requires n <= IntMax && !IsDigit(Peek(tail, 0))
    ensures Scan(Spell(Number(n)) + tail, false) == Ok(Lexeme(Number(n), tail))
  {
    NumberLiteral(n, tail);
    ToIntKeepsIntValues(n);
  }

  lemma NegativeScans(n: int, tail: string)
    requires IntMin <= n < 0 && !IsDigit(Peek(tail, 0))
    ensures Scan(Spell(Number(n)) + tail, false) == Ok(Lexeme(Number(n), tail))
  {
    var m: nat := -n;
    assert Spell(Number(n)) == "-" + ShowNat(m);
    NegativeLiteral(m, tail);
    assert ClampLong(-(m as int)) == n;
    ToIntKeepsIntValues(n);
  }

  /** The keywords and punctuation tokens, which are spelled the same way
      every time. */
  lemma SymbolScans(t: Token, tail: string, atLineStart: bool)
    requires !t.LineNo? && !t.Number? && !t.Str? && !t.Ident? && t != Eol && t != Eof
    requires Separated(t, tail)
    ensures Scan(Spell(t) + tail, atLineStart) == Ok(Lexeme(t, tail))
  {
    if KeywordOf(t).Some? {
      var k := KeywordOf(t).value;
      KeywordSpelling(t);
      KeywordLiteral(Spell(t), k, tail, atLineStart);
    } else {
      PunctuationSpelling(t);
      PunctuationLiteral(Spell(t)[0], tail, atLineStart);
    }
  }

  lemma KeywordSpelling(t: Token)
    requires KeywordOf(t).Some?
    ensures KeywordOf(t).value < |Keywords|
    ensures Spell(t) == Keywords[KeywordOf(t).value] && KeywordToken(KeywordOf(t).value) == t
    ensures SameIgnoringCase(Spell(t), Keywords[KeywordOf(t).value])
  {
  }

  lemma PunctuationSpelling(t: Token)
    requires !t.LineNo? && !t.Number? && !t.Str? && !t.Ident? && t != Eol && t != Eof && KeywordOf(t).None?
    ensures |Spell(t)| == 1 && Punctuation(Spell(t)[0]) == Some(t)
    ensures Spell(t)[0] == '-' <==> t == Sub
  {
  }

  /** The tokens of a line, each preceded by one blank. */
  function Render(toks: seq<Token>): (r: string)
    ensures |toks| > 0 ==> Peek(r, 0) == ' '
  {
    if |toks| == 0 then "" else " " + Spell(toks[0]) + Render(toks[1..])
  }

  /** Reading a rendered line gives back its tokens, one after another,
      and stops exactly where the rendering ends. */
  lemma {:induction false} RenderLexes(toks: seq<Token>, tail: string)
    requires forall i :: 0 <= i < |toks| ==> Spellable(toks[i], false)
    requires |toks| > 0 ==> Separated(toks[|toks| - 1], tail)
    ensures Lexes(Render(toks) + tail, toks, tail)
    decreases |toks|
  {
    if |toks| == 0 {
      assert Render(toks) + tail == tail;
    } else {
      var rest := Render(toks[1..]) + tail;
      assert Separated(toks[0], rest) by {
        if |toks| > 1 {
          assert Peek(rest, 0) == Peek(Render(toks[1..]), 0);
        } else {
          assert rest == tail;
        }
      }
      assert Scan(Render(toks) + tail, false) == Ok(Lexeme(toks[0], rest)) by {
        SpellScans(toks[0], rest, false);
        LeadingBlanks(" ", Spell(toks[0]) + rest, false);
        assert Render(toks) == " " + Spell(toks[0]) + Render(toks[1..]);
        Regroup(" ", Spell(toks[0]), Render(toks[1..]), tail);
      }
      assert Lexes(rest, toks[1..], tail) by {
        assert toks[1..] != [] ==> toks[1..][|toks[1..]| - 1] == toks[|toks| - 1];
        RenderLexes(toks[1..], tail);
      }
      LexesStep(Render(toks) + tail, toks, rest, tail);
    }
  }

  /** One token read, then the others. */
  lemma LexesStep(text: string, toks: seq<Token>, rest: string, tail: string)
    requires |toks| > 0 && Scan(text, false) == Ok(Lexeme(toks[0], rest)) && Lexes(rest, toks[1..], tail)
    ensures Lexes(text, toks, tail)
  {
  }

  // ---------------------------------------------------------------------
  // Sequence bookkeeping
  // ---------------------------------------------------------------------
  // Concatenation regrouped into the shape a caller's goal is written
  // in; these steps model nothing of the program itself.

  lemma Regroup(a: string, b: string, c: string, d: string)
    ensures a + b + c + d == a + (b + (c + d))
  {
  }

  lemma Regroup3(a: string, b: string, c: string)
    ensures a + b + c == a + (b + c)
  {
  }
}

=== FILE: statement_facts.dfy ===
/**
 * What the statements record and emit for their simplest forms.
 *
 * As for the folding facts, the source text after the statement keyword is
 * described by the tokens it lexes to (`Lexes`), away from the start of a
 * line. The lemmas follow the statements: LET and DIM record a variable,
 * INPUT pools its prompt and reads into a declared variable, PRINT prints a
 * literal or a variable, and IF brackets its trailing statement between a
 * conditional jump and its skip label.
 */
module StatementFacts {
  import opened Basics
  import opened Tables
  import opened Scanner
  import opened Assembly
  import opened Context
  import opened Lexer
  import opened Expressions
  import opened Statements
  import opened Folding

  /** Where the line continues after three tokens `t1 t2 t3`: the state the
      statement head leaves, on the third token. */
  function After(s: State, v: Token, mid: string): (r: State)
    ensures r.rest == mid && r.tok == v && r.vars == s.vars && r.lineno == s.lineno
    ensures r.linenoStart == (v == Eol) && r.code == s.code && r.pool == s.pool && r.output == s.output
  {
    s.(rest := mid, tok := v, linenoStart := v == Eol)
  }

  // ---------------------------------------------------------------------
  // LET and DIM
  // ---------------------------------------------------------------------

  /** `NAME =` read past, on the token after `=`. */
  lemma BindingLexed(s: State, x: string, v: Token, mid: string)
    requires !s.linenoStart && Lexes(s.rest, [Ident(x), Eq, v], mid)
    ensures Binding(s) == Ok((x, After(s, v, mid)))
  {
    var l1 := Scan(s.rest, false).value;
    var l2 := Scan(l1.rest, false).value;
    assert Scan(s.rest, false).Ok? && l1.tok == Ident(x) && Scan(l1.rest, false).Ok? && l2.tok == Eq
      && Scan(l2.rest, false) == Ok(Lexeme(v, mid)) by {
      LexesFirst(s.rest, Ident(x), [Eq, v], mid);
      LexesFirst(l1.rest, Eq, [v], mid);
      LexesFirst(l2.rest, v, [], mid);
    }
    var s1 := s.(rest := l1.rest, tok := Ident(x));
    assert NextToken(s) == Ok(s1) by { TokenWithinLine(s, l1); }
    var s2 := s1.(rest := l2.rest, tok := Eq);
    assert NextToken(s1) == Ok(s2) by { TokenWithinLine(s1, l2); }
    assert NextToken(s2) == Ok(After(s, v, mid)) by { TokenWithinLine(s2, Lexeme(v, mid)); }
    assert Truncate(x, NameLimit) == x;
  }

  /** The value part of LET when it is an expression. */
  lemma AssignExpression(s: State, name: string, e: State)
    requires |name| <= NameLimit && !s.tok.Str? && ParseExpression(s) == Ok(e)
    ensures Assign(s, name) == NextToken(DeclareNumber(Emit(e, StoreRax(name)), name, e.currentValue, 0))
  {
  }

  /** The value part of DIM when it is an expression. */
  lemma DeclareExpression(s: State, name: string, e: State)
    requires |name| <= NameLimit && !s.tok.Str? && ParseExpression(s) == Ok(e)
    ensures Declare(s, name) == NextToken(DeclareNumber(e, name, 0, 1))
  {
  }

  /** What LET does once its expression is parsed: it stores the result,
      records the folded value, and reads on from where the expression
      stopped. */
  lemma LetOfExpression(s: State, x: string, v: Token, mid: string, e: State)
    requires !s.linenoStart && Lexes(s.rest, [Ident(x), Eq, v], mid) && !v.Str?
    requires ParseExpression(After(s, v, mid)) == Ok(e)
    ensures ParseLet(s).Ok? <==> Recognised(Peek(SkipBlanks(e.rest), 0))
    ensures ParseLet(s).Ok? ==>
      && ParseLet(s).value.vars == AddVariableNumber(s.vars, e.lineno, x, e.currentValue, 0)
      && e.code + (if s.output then [StoreRax(x)] else []) <= ParseLet(s).value.code
  {
    BindingLexed(s, x, v, mid);
    assert |x| <= NameLimit by { LexesFirst(s.rest, Ident(x), [Eq, v], mid); }
    AssignExpression(After(s, v, mid), x, e);
  }

  /** `LET x = a` records a and emits its load and store. */
  lemma LetLiteral(s: State, x: string, a: int, mid: string, t: Token, tail: string)
    requires !s.linenoStart
    requires Lexes(s.rest, [Ident(x), Eq, Number(a)], mid) && Lexes(mid, [t], tail) && !IsOperator(t)
    ensures ParseLet(s).Ok? <==> Recognised(Peek(SkipBlanks(tail), 0))
    ensures ParseLet(s).Ok? ==>
      && ParseLet(s).value.vars == AddVariableNumber(s.vars, s.lineno, x, a, 0)
      && s.code + (if s.output then [MovImm(a), StoreRax(x)] else []) <= ParseLet(s).value.code
  {
    var b := After(s, Number(a), mid);
    FoldLiteral(b, a, t, tail);
    LetOfExpression(s, x, Number(a), mid, ParseExpression(b).value);
    if s.output {
      Append2(s.code, MovImm(a), StoreRax(x));
    }
  }

  /** `LET x = a * b` and `LET x = a / b` record b, not the product or the
      quotient; a literal zero divisor is refused. */
  lemma LetProduct(s: State, x: string, a: int, mid: string, op: Token, b: int, tail: string)
    requires !s.linenoStart && (op == Mul || op == Div)
    requires Lexes(s.rest, [Ident(x), Eq, Number(a)], mid) && Lexes(mid, [op, Number(b)], tail)
    ensures ParseLet(s).Ok? <==> !(op == Div && b == 0) && Recognised(Peek(SkipBlanks(tail), 0))
    ensures ParseLet(s).Ok? ==> ParseLet(s).value.vars == AddVariableNumber(s.vars, s.lineno, x, b, 0)
  {
    var c := After(s, Number(a), mid);
    FoldProduct(c, a, op, b, tail);
    if ParseExpression(c).Ok? {
      LetOfExpression(s, x, Number(a), mid, ParseExpression(c).value);
    } else {
      BindingLexed(s, x, Number(a), mid);
    }
  }

  /** `LET x = a + b` records 2b and `LET x = a - b` records 0. */
  lemma LetSum(s: State, x: string, a: int, mid: string, op: Token, b: int, t: Token, tail: string)
    requires !s.linenoStart && (op == Add || op == Sub)
    requires Lexes(s.rest, [Ident(x), Eq, Number(a)], mid) && Lexes(mid, [op, Number(b), t], tail) && !IsOperator(t)
    ensures ParseLet(s).Ok? <==> Recognised(Peek(SkipBlanks(tail), 0))
    ensures ParseLet(s).Ok? ==>
      ParseLet(s).value.vars == AddVariableNumber(s.vars, s.lineno, x, if op == Add then b + b else 0, 0)
  {
    var c := After(s, Number(a), mid);
    FoldSum(c, a, op, b, t, tail);
    LetOfExpression(s, x, Number(a), mid, ParseExpression(c).value);
  }

  /** `LET x = "text"` records the text as the variable's value and loads a
      string address named after the pool's size, without pooling the text. */
  lemma LetString(s: State, x: string, text: string, mid: string)
    requires !s.linenoStart && Lexes(s.rest, [Ident(x), Eq, Str(text)], mid)
    ensures ParseLet(s).Ok? <==> Recognised(Peek(SkipBlanks(mid), 0))
    ensures ParseLet(s).Ok? ==>
      && ParseLet(s).value.vars == AddVariableString(s.vars, s.lineno, x, text, 0)
      && ParseLet(s).value.pool == s.pool
      && s.code + (if s.output then [LeaString(|s.pool|)] else []) <= ParseLet(s).value.code
  {
    BindingLexed(s, x, Str(text), mid);
    assert |x| <= NameLimit by { LexesFirst(s.rest, Ident(x), [Eq, Str(text)], mid); }
  }

  /** `DIM x = "text"` declares x as a string buffer; the text is dropped
      and nothing is emitted beyond the next line's label. */
  lemma DimString(s: State, x: string, text: string, mid: string)
    requires !s.linenoStart && Lexes(s.rest, [Ident(x), Eq, Str(text)], mid)
    ensures ParseDim(s).Ok? <==> Recognised(Peek(SkipBlanks(mid), 0))
    ensures ParseDim(s).Ok? ==> var r := ParseDim(s).value;
      && r.vars == AddVariableString(s.vars, s.lineno, x, "", 1)
      && r.pool == s.pool
      && r.code == s.code + (if s.output && r.tok.LineNo? then [Label(r.tok.value)] else [])
  {
    BindingLexed(s, x, Str(text), mid);
    assert |x| <= NameLimit by { LexesFirst(s.rest, Ident(x), [Eq, Str(text)], mid); }
  }

  /** `DIM x = a` declares x as a number; the value is parsed and loaded
      but dropped. */
  lemma DimNumber(s: State, x: string, a: int, mid: string, t: Token, tail: string)
    requires !s.linenoStart
    requires Lexes(s.rest, [Ident(x), Eq, Number(a)], mid) && Lexes(mid, [t], tail) && !IsOperator(t)
    ensures ParseDim(s).Ok? <==> Recognised(Peek(SkipBlanks(tail), 0))
    ensures ParseDim(s).Ok? ==> var r := ParseDim(s).value;
      && r.vars == AddVariableNumber(s.vars, s.lineno, x, 0, 1)
      && r.code == s.code + (if s.output then [MovImm(a)] else []) + (if s.output && r.tok.LineNo? then [Label(r.tok.value)] else [])
  {
    var b := After(s, Number(a), mid);
    BindingLexed(s, x, Number(a), mid);
    assert |x| <= NameLimit by { LexesFirst(s.rest, Ident(x), [Eq, Number(a)], mid); }
    FoldLiteral(b, a, t, tail);
    DeclareExpression(b, x, ParseExpression(b).value);
  }

  // ---------------------------------------------------------------------
  // INPUT
  // ---------------------------------------------------------------------

  /** Reading a token away from the start of a line: cursor and token only. */
  lemma NextLexed(s: State, t: Token, tail: string)
    requires !s.linenoStart && Lexes(s.rest, [t], tail)
    ensures NextToken(s) == Ok(After(s, t, tail))
  {
    LexesFirst(s.rest, t, [], tail);
    TokenWithinLine(s, Scan(s.rest, false).value);
  }

  /** Two tokens, the first not a newline. */
  lemma NextLexed2(s: State, t1: Token, t2: Token, tail: string)
    requires !s.linenoStart && Lexes(s.rest, [t1, t2], tail) && t1 != Eol
    ensures var l := Scan(s.rest, false).value;
      && NextToken(s) == Ok(After(s, t1, l.rest))
      && NextToken(After(s, t1, l.rest)) == Ok(After(s, t2, tail))
  {
    LexesFirst(s.rest, t1, [t2], tail);
    var l := Scan(s.rest, false).value;
    NextLexed(s, t1, l.rest);
    NextLexed(After(s, t1, l.rest), t2, tail);
  }

  /** Three tokens are two tokens and then one. */
  lemma LexesSplit(text: string, t1: Token, t2: Token, t3: Token, tail: string)
    requires Lexes(text, [t1, t2, t3], tail)
    ensures Scan(text, false).Ok? && Scan(Scan(text, false).value.rest, false).Ok?
    ensures var mid := Scan(Scan(text, false).value.rest, false).value.rest;
      Lexes(text, [t1, t2], mid) && Lexes(mid, [t3], tail)
  {
    LexesFirst(text, t1, [t2, t3], tail);
    LexesFirst(Scan(text, false).value.rest, t2, [t3], tail);
    assert [t1, t2][1..] == [t2];
  }

  /** INPUT not followed by a string literal. */
  lemma InputWithoutPrompt(s: State, t: Token, tail: string)
    requires !s.linenoStart && Lexes(s.rest, [t], tail) && !t.Str?
    ensures ParseInput(s) == Fail(ExpectedStringAfterInput)
  {
    NextLexed(s, t, tail);
  }

  /** The prompt of INPUT not followed by a comma. */
  lemma InputWithoutComma(s: State, p: string, t: Token, tail: string)
    requires !s.linenoStart && Lexes(s.rest, [Str(p), t], tail) && t != Comma
    ensures ParseInput(s) == Fail(ExpectedComma)
  {
    NextLexed2(s, Str(p), t, tail);
    var l := Scan(s.rest, false).value;
    var s2 := Record(After(s, Str(p), l.rest), p);
    assert NextToken(s2) == Ok(After(s2, t, tail)) by {
      NextLexed(s2, t, tail);
    }
    assert Prompted(s) == Fail(ExpectedComma);
  }

  /** The comma of INPUT not followed by a name. */
  lemma InputWithoutName(s: State, p: string, t: Token, tail: string)
    requires !s.linenoStart && Lexes(s.rest, [Str(p), Comma, t], tail) && !t.Ident?
    ensures ParseInput(s) == Fail(ExpectedIdentifier)
  {
    LexesSplit(s.rest, Str(p), Comma, t, tail);
    var l2 := Scan(Scan(s.rest, false).value.rest, false).value;
    PromptedLexed(s, p, l2.rest);
    var s3 := After(s, Comma, l2.rest).(pool := AddString(s.pool, s.lineno, p));
    NextLexed(s3, t, tail);
    assert InputHead(s) == Fail(ExpectedIdentifier);
  }

  /** INPUT "prompt" , read past: the prompt pooled, the comma current. */
  lemma PromptedLexed(s: State, p: string, rest: string)
    requires !s.linenoStart && Lexes(s.rest, [Str(p), Comma], rest)
    ensures Prompted(s) == Ok(After(s, Comma, rest).(pool := AddString(s.pool, s.lineno, p)))
  {
    NextLexed2(s, Str(p), Comma, rest);
    var l1 := Scan(s.rest, false).value;
    var s2 := Record(After(s, Str(p), l1.rest), p);
    assert NextToken(s2) == Ok(After(s2, Comma, rest)) by {
      LexesFirst(s.rest, Str(p), [Comma], rest);
      NextLexed(s2, Comma, rest);
    }
  }

  /** The name of INPUT read, on the token after it. */
  lemma InputHeadUnfold(s: State, s3: State, x: string, l: Lexeme)
    requires Prompted(s) == Ok(s3) && !s3.linenoStart
    requires Lexes(s3.rest, [Ident(x)], l.rest) && Scan(l.rest, false).Ok?
    ensures InputHead(s) == Ok((x, After(After(s3, Ident(x), l.rest), Scan(l.rest, false).value.tok, Scan(l.rest, false).value.rest)))
  {
    var s4 := After(s3, Ident(x), l.rest);
    assert NextToken(s3) == Ok(s4) && Truncate(x, NameLimit) == x by {
      NextLexed(s3, Ident(x), l.rest);
      LexesFirst(s3.rest, Ident(x), [], l.rest);
    }
    var m := Scan(l.rest, false).value;
    assert NextToken(s4) == Ok(After(s4, m.tok, m.rest)) by {
      TokenWithinLine(s4, m);
    }
  }

  /** The operands of INPUT read: the state `parse_input` tests `output` in. */
  lemma InputOperands(s: State, p: string, x: string, mid: string, l: Lexeme)
    requires !s.linenoStart && Lexes(s.rest, [Str(p), Comma, Ident(x)], mid)
    requires Scan(mid, false) == Ok(l)
    ensures InputHead(s) == Ok((x, s.(rest := l.rest, tok := l.tok, linenoStart := l.tok == Eol, pool := AddString(s.pool, s.lineno, p))))
  {
    LexesSplit(s.rest, Str(p), Comma, Ident(x), mid);
    var r2 := Scan(Scan(s.rest, false).value.rest, false).value.rest;
    PromptedLexed(s, p, r2);
    var s3 := After(s, Comma, r2).(pool := AddString(s.pool, s.lineno, p));
    InputHeadUnfold(s, s3, x, Lexeme(Ident(x), mid));
  }

  /** INPUT is its operands, then the read while output is on. */
  lemma InputUnfold(s: State, x: string, s5: State)
    requires InputHead(s) == Ok((x, s5))
    ensures ParseInput(s) == if s5.output then ReadInto(s5, x) else Ok(s5)
  {
  }

  /** The code of a read into `x` once the prompt is printed: a `scanf` only
      for a DIM-declared variable, in the format of its kind. */
  function ScanInto(v: Variable, x: string): (code: seq<Instr>)
    ensures |code| <= 1
    ensures code != [] <==> DeclaredOnly(v)
  {
    if DeclaredOnly(v) then [if v.payload.Text? then ScanText(x) else ScanNumber(x)] else []
  }

  /** The code INPUT emits after its operands, with output on. */
  lemma ReadIntoCode(s: State, x: string)
    requires s.output && FindVariable(s.vars, x).Some?
    ensures ReadInto(s, x).Ok?
    ensures ReadInto(s, x).value.code == s.code + [Prompt(s.lineno)] + ScanInto(s.vars[FindVariable(s.vars, x).value], x)
  {
  }

  /** What INPUT "prompt", x does: the prompt is pooled in both passes; with
      output on it is printed, x must exist, and a DIM-declared x is read
      into. Without output nothing is checked. */
  lemma InputReads(s: State, p: string, x: string, mid: string)
    requires !s.linenoStart && Lexes(s.rest, [Str(p), Comma, Ident(x)], mid)
    requires Scan(mid, false).Ok?
    ensures ParseInput(s).Fail? <==> s.output && FindVariable(s.vars, x).None?
    ensures ParseInput(s).Fail? ==> ParseInput(s).error == VariableDoesNotExist
    ensures ParseInput(s).Ok? ==> var r := ParseInput(s).value;
      && r.vars == s.vars && r.pool == AddString(s.pool, s.lineno, p) && r.lineno == s.lineno
      && r.code == if s.output then s.code + [Prompt(s.lineno)] + ScanInto(s.vars[FindVariable(s.vars, x).value], x) else s.code
  {
    var l := Scan(mid, false).value;
    var s5 := s.(rest := l.rest, tok := l.tok, linenoStart := l.tok == Eol, pool := AddString(s.pool, s.lineno, p));
    assert ParseInput(s) == if s.output then ReadInto(s5, x) else Ok(s5) by {
      InputOperands(s, p, x, mid, l);
      InputUnfold(s, x, s5);
    }
    if s.output && FindVariable(s.vars, x).Some? {
      ReadIntoCode(s5, x);
    }
  }

  // ---------------------------------------------------------------------
  // PRINT
  // ---------------------------------------------------------------------

  /** PRINT "text" pools the text under the current line and prints it. */
  lemma PrintsLiteral(s: State, p: string, t: Token, tail: string)
    requires !s.linenoStart && Lexes(s.rest, [Str(p), t], tail)
    ensures ParsePrint(s) == Ok(After(s, t, tail).(
      pool := AddString(s.pool, s.lineno, p),
      code := s.code + (if s.output then [PrintLiteral(s.lineno)] else [])))
  {
    NextLexed2(s, Str(p), t, tail);
    var l := Scan(s.rest, false).value;
    var s1 := After(s, Str(p), l.rest);
    var s3 := Record(Emit(s1, PrintLiteral(s1.lineno)), p);
    assert NextToken(s3) == Ok(After(s3, t, tail)) by { NextLexed(s3, t, tail); }
  }

  /** The print instruction for a variable: by its declared spelling, in
      the format of its kind. */
  function Printed(v: Variable): (i: Instr)
    ensures i.PrintText? || i.PrintNumber?
    ensures i.PrintText? <==> v.payload.Text?
  {
    if v.payload.Text? then PrintText(v.name) else PrintNumber(v.name)
  }

  /** The code PRINT emits for a variable. */
  lemma PrintVariableCode(s: State, x: string)
    ensures PrintVariable(s, x).code == s.code +
      if s.output && FindVariable(s.vars, x).Some? then [Printed(s.vars[FindVariable(s.vars, x).value])] else []
  {
  }

  /** PRINT x prints a declared variable under its declared spelling, in the
      format of its kind, and silently skips an undeclared one. */
  lemma PrintsVariable(s: State, x: string, t: Token, tail: string)
    requires !s.linenoStart && Lexes(s.rest, [Ident(x), t], tail)
    ensures ParsePrint(s) == Ok(After(s, t, tail).(code := s.code +
      if s.output && FindVariable(s.vars, x).Some? then [Printed(s.vars[FindVariable(s.vars, x).value])] else []))
  {
    NextLexed2(s, Ident(x), t, tail);
    var l := Scan(s.rest, false).value;
    var s1 := After(s, Ident(x), l.rest);
    var s2 := PrintVariable(s1, x);
    PrintVariableCode(s1, x);
    assert NextToken(s2) == Ok(After(s2, t, tail)) by { NextLexed(s2, t, tail); }
  }

  // ---------------------------------------------------------------------
  // GOTO, EXIT and IF
  // ---------------------------------------------------------------------

  /** EXIT emits the exit system call and reads the next token. */
  lemma ExitLexed(s: State, t: Token, tail: string)
    requires !s.linenoStart && Lexes(s.rest, [t], tail)
    ensures ParseExit(s) == Ok(After(s, t, tail).(code := s.code + if s.output then [ExitSyscall] else []))
  {
    NextLexed(Emit(s, ExitSyscall), t, tail);
  }

  /** GOTO n jumps to line n's label. */
  lemma GotoLexed(s: State, n: int, t: Token, tail: string)
    requires !s.linenoStart && Lexes(s.rest, [Number(n), t], tail)
    ensures ParseGoto(s) == Ok(After(s, t, tail).(code := s.code + if s.output then [Jmp(n)] else []))
  {
    NextLexed2(s, Number(n), t, tail);
    var s1 := After(s, Number(n), Scan(s.rest, false).value.rest);
    var s2 := Emit(s1, Jmp(n));
    assert NextToken(s2) == Ok(After(s2, t, tail)) by { NextLexed(s2, t, tail); }
  }

  /** The comparison of an IF against a literal: the left value is saved,
      the literal loaded, the two compared, and the branch to the skip label
      emitted with the IF's counter. */
  lemma CompareLiteral(c: State, b: int, t: Token, tail: string, line: int)
    requires (c.tok == Lt || c.tok == Gt || c.tok == Eq) && !c.linenoStart
    requires Lexes(c.rest, [Number(b), t], tail) && !IsOperator(t)
    ensures Compare(c, line).Ok?
    ensures var r := Compare(c, line).value;
      && r.tok == t && r.rest == tail && r.linenoStart == (t == Eol)
      && r.labelCounter == c.labelCounter && r.ifStatement == c.ifStatement && r.vars == c.vars
      && r.code == c.code + (if c.output then [PushRax, MovImm(b), PopRbx, CmpRbxRax, Branch(c.tok, line, c.labelCounter)] else [])
  {
    var s1 := Emit(c, PushRax);
    LexesFirst(c.rest, Number(b), [t], tail);
    var r1 := Scan(c.rest, false).value.rest;
    NextLexed(s1, Number(b), r1);
    var s2 := After(s1, Number(b), r1);
    FoldLiteral(s2, b, t, tail);
    var s3 := ParseExpression(s2).value;
    var s4 := Emit(Emit(s3, PopRbx), CmpRbxRax);
    var s5 := Emit(s4, Branch(c.tok, line, s4.labelCounter));
    assert Compare(c, line) == Ok(s5);
    if c.output {
      Append5s(c.code, PushRax, MovImm(b), PopRbx, CmpRbxRax, Branch(c.tok, line, c.labelCounter));
    }
  }

  /** The comparison of an IF against any right expression: the left value
      is saved, the right expression parsed, the two compared, and the
      branch to the skip label emitted with the IF's counter. */
  lemma CompareExpression(s: State, line: int, s2: State, s3: State)
    requires s.tok == Lt || s.tok == Gt || s.tok == Eq
    requires NextToken(Emit(s, PushRax)) == Ok(s2) && ParseExpression(s2) == Ok(s3)
    ensures Compare(s, line) == Ok(Emit(Emit(Emit(s3, PopRbx), CmpRbxRax), Branch(s.tok, line, s.labelCounter)))
    ensures Compare(s, line).value.code == s3.code + (if s.output then [PopRbx, CmpRbxRax, Branch(s.tok, line, s.labelCounter)] else [])
  {
    assert s3.labelCounter == s.labelCounter;
    ComparisonCode(s3, Branch(s.tok, line, s.labelCounter));
  }

  /** The code a comparison adds after its right expression. */
  lemma ComparisonCode(s3: State, jump: Instr)
    ensures Emit(Emit(Emit(s3, PopRbx), CmpRbxRax), jump).code == s3.code + (if s3.output then [PopRbx, CmpRbxRax, jump] else [])
  {
    if s3.output {
      Append2(s3.code + [PopRbx], CmpRbxRax, jump);
    }
  }

  /** `IF a` read: the IF armed, on the left literal. */
  lemma LeftToken(s: State, a: int, r1: string)
    requires s.tok == If && !s.linenoStart && Lexes(s.rest, [Number(a)], r1)
    ensures NextToken(Arm(s)) == Ok(After(Arm(s), Number(a), r1))
  {
    var s0 := Arm(s);
    assert s0.rest == s.rest && !s0.linenoStart;
    NextLexed(s0, Number(a), r1);
  }

  /** The left literal of a comparison. */
  lemma LeftExpression(s1: State, a: int, op: Token, m1: string)
    requires s1.tok == Number(a) && !s1.linenoStart && (op == Lt || op == Gt || op == Eq)
    requires Lexes(s1.rest, [op], m1)
    ensures ParseExpression(s1).Ok?
    ensures var s2 := ParseExpression(s1).value;
      && s2.tok == op && s2.rest == m1 && !s2.linenoStart && s2.output == s1.output
      && s2.labelCounter == s1.labelCounter && s2.ifStatement == s1.ifStatement && s2.vars == s1.vars
      && s2.code == s1.code + (if s1.output then [MovImm(a)] else [])
  {
    FoldLiteral(s1, a, op, m1);
    var s2 := ParseExpression(s1).value;
    assert ExpressionStep(s1, s2);
  }

  /** Two tokens are one token and then one. */
  lemma LexesSplit2(text: string, t1: Token, t2: Token, tail: string)
    requires Lexes(text, [t1, t2], tail)
    ensures Scan(text, false).Ok?
    ensures Lexes(text, [t1], Scan(text, false).value.rest) && Lexes(Scan(text, false).value.rest, [t2], tail)
  {
    LexesFirst(text, t1, [t2], tail);
  }

  /** The condition of an IF is its left expression followed by the
      comparison. */
  lemma ConditionOfCompare(s: State, line: int, s1: State, s2: State, c: State)
    requires s.tok == If && NextToken(Arm(s)) == Ok(s1) && ParseExpression(s1) == Ok(s2) && Compare(s2, line) == Ok(c)
    ensures Condition(s, line) == Ok(c)
  {
  }

  /** `IF e op b`, once the left expression `e` is parsed. */
  lemma ConditionFrom(s: State, s1: State, s2: State, op: Token, m1: string, b: int, t: Token, m2: string, line: int)
    requires s.tok == If && NextToken(Arm(s)) == Ok(s1) && ParseExpression(s1) == Ok(s2)
    requires (op == Lt || op == Gt || op == Eq) && s2.tok == op && s2.rest == m1 && !s2.linenoStart
    requires Lexes(m1, [Number(b), t], m2) && !IsOperator(t)
    ensures Condition(s, line).Ok?
    ensures var c := Condition(s, line).value;
      && c.tok == t && c.rest == m2 && c.linenoStart == (t == Eol)
      && c.labelCounter == s2.labelCounter && c.ifStatement == s2.ifStatement && c.vars == s2.vars
      && c.code == s2.code + (if s2.output then [PushRax, MovImm(b), PopRbx, CmpRbxRax, Branch(op, line, s2.labelCounter)] else [])
  {
    CompareLiteral(s2, b, t, m2, line);
    ConditionOfCompare(s, line, s1, s2, Compare(s2, line).value);
  }

  /** `IF a op b` read: the IF is armed with counter 0, and the comparison
      jumps to the skip label numbered 0. */
  lemma ConditionLiteral(s: State, a: int, op: Token, m1: string, b: int, t: Token, m2: string, line: int)
    requires s.tok == If && !s.linenoStart && (op == Lt || op == Gt || op == Eq)
    requires Lexes(s.rest, [Number(a), op], m1) && Lexes(m1, [Number(b), t], m2) && !IsOperator(t)
    ensures Condition(s, line).Ok?
    ensures var c := Condition(s, line).value;
      && c.tok == t && c.rest == m2 && c.linenoStart == (t == Eol)
      && c.labelCounter == 0 && c.ifStatement && c.vars == s.vars
      && c.code == s.code + (if s.output then [MovImm(a), PushRax, MovImm(b), PopRbx, CmpRbxRax, Branch(op, line, 0)] else [])
  {
    LexesSplit2(s.rest, Number(a), op, m1);
    var r1 := Scan(s.rest, false).value.rest;
    LeftToken(s, a, r1);
    var s1 := After(Arm(s), Number(a), r1);
    LeftExpression(s1, a, op, m1);
    var s2 := ParseExpression(s1).value;
    ConditionFrom(s, s1, s2, op, m1, b, t, m2, line);
    if s.output {
      Append6(s.code, MovImm(a), PushRax, MovImm(b), PopRbx, CmpRbxRax, Branch(op, line, 0));
    }
  }

  /** The head of an IF is its condition followed by a colon. */
  lemma IfHeadAfter(s: State, line: int, c: State, k: Token, tail: string)
    requires s.tok == If && Condition(s, line) == Ok(c) && c.tok == Colon && !c.linenoStart && Lexes(c.rest, [k], tail)
    ensures IfHead(s, line) == Ok(After(c, k, tail))
  {
    NextLexed(c, k, tail);
  }

  /** An IF whose condition, of any shape, is not followed by a colon is
      rejected. */
  lemma IfMissingColon(s: State)
    requires s.tok == If && Condition(s, s.lineno).Ok? && Condition(s, s.lineno).value.tok != Colon
    ensures ParseIf(s) == Fail(ExpectedColon)
  {
    assert IfHead(s, s.lineno) == Fail(ExpectedColon);
  }

  /** An IF whose single-literal condition is followed by neither a
      comparison, an operator nor a colon is rejected. */
  lemma IfWithoutColon(s: State, a: int, t: Token, tail: string)
    requires s.tok == If && !s.linenoStart
    requires Lexes(s.rest, [Number(a), t], tail) && !IsOperator(t) && t != Lt && t != Gt && t != Eq && t != Colon
    ensures ParseIf(s) == Fail(ExpectedColon)
  {
    var s0 := Arm(s);
    LexesFirst(s.rest, Number(a), [t], tail);
    var r1 := Scan(s.rest, false).value.rest;
    NextLexed(s0, Number(a), r1);
    var s1 := After(s0, Number(a), r1);
    FoldLiteral(s1, a, t, tail);
    assert Condition(s, s.lineno).value.tok == t;
  }

  /** An IF is its head, its trailing statement and its closing. */
  lemma IfUnfold(s: State, h: State)
    requires s.tok == If && IfHead(s, s.lineno) == Ok(h)
    ensures ParseIf(s) == if ParseStatement(h).Ok? then Ok(CloseIf(ParseStatement(h).value, s.lineno)) else Fail(ParseStatement(h).error)
  {
  }

  /** After the head, an IF is its trailing statement followed by the skip
      label named by the IF's line and counter 0; the counter is then 1 and
      the IF disarmed. */
  lemma IfClosing(s: State, h: State)
    requires s.tok == If && IfHead(s, s.lineno) == Ok(h) && !h.tok.LineNo?
    ensures ParseIf(s).Ok? <==> ParseStatement(h).Ok?
    ensures ParseIf(s).Ok? ==> var r := ParseIf(s).value;
      && r.code == ParseStatement(h).value.code + (if s.output then [SkipLabel(s.lineno, 0)] else [])
      && r.labelCounter == 1 && !r.ifStatement
  {
    IfUnfold(s, h);
    if ParseStatement(h).Ok? {
      var q := ParseStatement(h).value;
      assert q.labelCounter == 0 && !q.ifStatement && q.output == s.output;
      CloseIfAfter(q, s.lineno);
    }
  }

  /** The skip label of an IF whose counter is 0. */
  lemma CloseIfAfter(q: State, line: int)
    requires q.labelCounter == 0 && !q.ifStatement
    ensures var r := CloseIf(q, line);
      && r.code == q.code + (if q.output then [SkipLabel(line, 0)] else [])
      && r.labelCounter == 1 && !r.ifStatement
  {
  }

  // ---------------------------------------------------------------------
  // Rejected statements
  // ---------------------------------------------------------------------

  /** LET not followed by a name. */
  lemma LetWithoutName(s: State, t: Token, tail: string)
    requires !s.linenoStart && Lexes(s.rest, [t], tail) && !t.Ident?
    ensures ParseLet(s) == Fail(ExpectedIdentifier)
  {
    NextLexed(s, t, tail);
  }

  /** DIM not followed by a name. */
  lemma DimWithoutName(s: State, t: Token, tail: string)
    requires !s.linenoStart && Lexes(s.rest, [t], tail) && !t.Ident?
    ensures ParseDim(s) == Fail(ExpectedIdentifier)
  {
    NextLexed(s, t, tail);
  }

  /** The name of a LET or DIM not followed by `=`. */
  lemma BindingWithoutEquals(s: State, x: string, t: Token, tail: string)
    requires !s.linenoStart && Lexes(s.rest, [Ident(x), t], tail) && t != Eq
    ensures Binding(s) == Fail(ExpectedEquals)
  {
    NextLexed2(s, Ident(x), t, tail);
  }

  lemma LetWithoutEquals(s: State, x: string, t: Token, tail: string)
    requires !s.linenoStart && Lexes(s.rest, [Ident(x), t], tail) && t != Eq
    ensures ParseLet(s) == Fail(ExpectedEquals)
  {
    BindingWithoutEquals(s, x, t, tail);
  }

  lemma DimWithoutEquals(s: State, x: string, t: Token, tail: string)
    requires !s.linenoStart && Lexes(s.rest, [Ident(x), t], tail) && t != Eq
    ensures ParseDim(s) == Fail(ExpectedEquals)
  {
    BindingWithoutEquals(s, x, t, tail);
  }

  /** GOTO not followed by a number. */
  lemma GotoWithoutNumber(s: State, t: Token, tail: string)
    requires !s.linenoStart && Lexes(s.rest, [t], tail) && !t.Number?
    ensures ParseGoto(s) == Fail(ExpectedLineNumber)
  {
    NextLexed(s, t, tail);
  }

  /** A numbered line `n LET = ...` is rejected for its missing name. */
  lemma NumberedLetWithoutName(s: State, t: Token, tail: string)
    requires s.tok.LineNo? && !s.linenoStart && Lexes(s.rest, [Let, t], tail) && !t.Ident?
    ensures ParseStatement(s) == Fail(ExpectedIdentifier)
  {
    NextLexed2(s, Let, t, tail);
    var s1 := After(s, Let, Scan(s.rest, false).value.rest);
    LetWithoutName(s1, t, tail);
    SimpleFailure(s, s1);
  }

  /** A numbered line whose trailing statement fails fails the same way. */
  lemma SimpleFailure(s: State, s1: State)
    requires s.tok.LineNo? && NextToken(s) == Ok(s1) && IsTrailing(s1.tok) && ParseSimple(s1).Fail?
    ensures ParseStatement(s) == ParseSimple(s1)
  {
  }

  /** A line number followed by a token that opens no statement. */
  lemma UnknownStatement(s: State, t: Token, tail: string)
    requires s.tok.LineNo? && !s.linenoStart && Lexes(s.rest, [t], tail) && !StartsStatement(t)
    ensures ParseStatement(s) == Fail(InvalidStatement)
  {
    NextLexed(s, t, tail);
    UnlistedStatement(s);
  }

  /** Whatever follows it, a line number whose next token opens no
      statement is rejected. */
  lemma UnlistedStatement(s: State)
    requires s.tok.LineNo? && NextToken(s).Ok? && !StartsStatement(NextToken(s).value.tok)
    ensures ParseStatement(s) == Fail(InvalidStatement)
  {
  }
}

=== FILE: statements.dfy ===
/**
 * The statement parsers and the program loop. Each statement is entered
 * with its keyword as the current token and returns with the token after
 * the statement read (for LET, DIM, GOTO, EXIT and most PRINTs this is the
 * line's newline, or already the next line's number).
 *
 * A statement is either numbered (`LINENO keyword ...`) or the trailing
 * statement of an IF, which is accepted only once, only right after the
 * IF's colon, and only for PRINT, LET, GOTO and EXIT.
 */
module Statements {
  import opened Basics
  import opened Tables
  import opened Scanner
  import opened Assembly
  import opened Context
  import opened Lexer
  import opened Expressions

  /** The frame of a simple statement: a parsing step that leaves the IF
      bookkeeping alone. */
  predicate StatementStep(s: State, r: State) {
    Extends(s, r) && KeepsIfState(s, r)
  }

  lemma StatementStepTransitive(a: State, b: State, c: State)
    requires StatementStep(a, b) && StatementStep(b, c)
    ensures StatementStep(a, c)
  {
    ExtendsTransitive(a, b, c);
  }

  /** A statement either consumes input or stops at the end of it. */
  predicate Progress(s: State, r: State) {
    r.tok == Eof || |r.rest| < |s.rest|
  }

  /** `add_string(lineno, text)` as a parsing step. */
  function Record(s: State, text: string): (r: State)
    ensures StatementStep(s, r) && r.rest == s.rest && r.tok == s.tok
    ensures r == s.(pool := r.pool)
    ensures r.pool == AddString(s.pool, s.lineno, text)
  {
    s.(pool := AddString(s.pool, s.lineno, text))
  }

  /** `add_variable_number(lineno, name, value, flags)` as a parsing step. */
  function DeclareNumber(s: State, name: string, value: int, flags: nat): (r: State)
    requires |name| <= NameLimit
    ensures StatementStep(s, r) && r.rest == s.rest && r.tok == s.tok
    ensures r == s.(vars := r.vars)
    ensures r.vars == AddVariableNumber(s.vars, s.lineno, name, value, flags)
  {
    s.(vars := AddVariableNumber(s.vars, s.lineno, name, value, flags))
  }

  /** `add_variable_string(lineno, name, value, flags)` as a parsing step. */
  function DeclareString(s: State, name: string, value: string, flags: nat): (r: State)
    requires |name| <= NameLimit
    ensures StatementStep(s, r) && r.rest == s.rest && r.tok == s.tok
    ensures r == s.(vars := r.vars)
    ensures r.vars == AddVariableString(s.vars, s.lineno, name, value, flags)
  {
    s.(vars := AddVariableString(s.vars, s.lineno, name, value, flags))
  }

  /** The print call for a variable: the string format for a string
      variable, the number format otherwise, and nothing at all for a name
      that is not declared. */
  function PrintVariable(s: State, name: string): (r: State)
    ensures StatementStep(s, r) && r.rest == s.rest && r.tok == s.tok
    ensures r == s.(code := r.code)
  {
    match FindVariable(s.vars, name)
    case Some(i) =>
      Emit(s, if s.vars[i].payload.Text? then PrintText(s.vars[i].name) else PrintNumber(s.vars[i].name))
    case None => s
  }

  /** `parse_print`: PRINT followed by a string literal, a variable, or
      nothing printable (in which case the token after PRINT is left for
      the caller). */
  function ParsePrint(s: State): (r: Result<State>)
    ensures r.Ok? ==> StatementStep(s, r.value) && r.value.vars == s.vars && Progress(s, r.value)
  {
    var s1 :- NextToken(s);
    if s1.tok.Str? then
      var s2 := Emit(s1, PrintLiteral(s1.lineno));
      var s3 := Record(s2, s1.tok.text);
      StatementStepTransitive(s1, s2, s3);
      var r :- NextToken(s3);
      StatementStepTransitive(s1, s3, r);
      StatementStepTransitive(s, s1, r);
      Ok(r)
    else if s1.tok.Ident? then
      var s2 := PrintVariable(s1, s1.tok.name);
      var r :- NextToken(s2);
      StatementStepTransitive(s1, s2, r);
      StatementStepTransitive(s, s1, r);
      Ok(r)
    else
      Ok(s1)
  }

  /** The code INPUT emits once its operands are read, while output is on:
      the prompt, then a read into the variable if it was declared with DIM.
      A name that is not in the table is an error. */
  function ReadInto(s: State, name: string): (r: Result<State>)
    requires s.output
    ensures r.Fail? <==> FindVariable(s.vars, name).None?
    ensures r.Fail? ==> r.error == VariableDoesNotExist
    ensures r.Ok? ==> StatementStep(s, r.value) && r.value == s.(code := r.value.code)
  {
    var s1 := Emit(s, Prompt(s.lineno));
    match FindVariable(s1.vars, name)
    case None => Fail(VariableDoesNotExist)
    case Some(i) =>
      var v := s1.vars[i];
      if DeclaredOnly(v) then
        var s2 := Emit(s1, if v.payload.Text? then ScanText(name) else ScanNumber(name));
        StatementStepTransitive(s, s1, s2);
        Ok(s2)
      else
        Ok(s1)
  }

  /** The prompt of `parse_input` and the comma after it: the prompt is
      pooled, and the comma is the current token. */
  function Prompted(s: State): (r: Result<State>)
    ensures r.Ok? ==> StatementStep(s, r.value) && r.value.vars == s.vars && |r.value.rest| < |s.rest|
    ensures r.Ok? ==> r.value.tok == Comma
  {
    var s1 :- NextToken(s);
    if !s1.tok.Str? then Fail(ExpectedStringAfterInput) else
    var s2 := Record(s1, s1.tok.text);
    StatementStepTransitive(s, s1, s2);
    var s3 :- NextToken(s2);
    StatementStepTransitive(s, s2, s3);
    if s3.tok != Comma then Fail(ExpectedComma) else
    Ok(s3)
  }

  /** The operands of `parse_input`: "prompt", NAME, read past. The name is
      cut to 63 characters. */
  function InputHead(s: State): (r: Result<(string, State)>)
    ensures r.Ok? ==> |r.value.0| <= NameLimit && StatementStep(s, r.value.1) && |r.value.1.rest| < |s.rest|
    ensures r.Ok? ==> r.value.1.vars == s.vars
  {
    var s3 :- Prompted(s);
    var s4 :- NextToken(s3);
    StatementStepTransitive(s, s3, s4);
    if !s4.tok.Ident? then Fail(ExpectedIdentifier) else
    var name := Truncate(s4.tok.name, NameLimit);
    var s5 :- NextToken(s4);
    StatementStepTransitive(s, s4, s5);
    Ok((name, s5))
  }

  /** `parse_input`: INPUT "prompt", NAME. The prompt is pooled in both
      passes; the existence of the variable is checked only while output is
      on. */
  function ParseInput(s: State): (r: Result<State>)
    ensures r.Ok? ==> StatementStep(s, r.value) && r.value.vars == s.vars && |r.value.rest| < |s.rest|
  {
    var (name, s5) :- InputHead(s);
    if !s5.output then Ok(s5) else
    var r :- ReadInto(s5, name);
    StatementStepTransitive(s, s5, r);
    Ok(r)
  }

  /** The assignment part of `parse_let`, entered on the token after `=`: a
      string literal is recorded as the variable's value without touching
      the pool; anything else is an expression whose folded value is
      recorded and whose result is stored. */
  function Assign(s: State, name: string): (r: Result<State>)
    requires |name| <= NameLimit
    ensures r.Ok? ==> StatementStep(s, r.value) && Progress(s, r.value)
    ensures r.Ok? && s.tok.Str? ==>
      r.value.vars == AddVariableString(s.vars, s.lineno, name, s.tok.text, 0) && r.value.pool == s.pool
    ensures r.Ok? && !s.tok.Str? ==>
      && ParseExpression(s).Ok?
      && r.value.vars == AddVariableNumber(s.vars, ParseExpression(s).value.lineno, name, ParseExpression(s).value.currentValue, 0)
  {
    if s.tok.Str? then
      var s1 := Emit(s, LeaString(|s.pool|));
      var s2 := DeclareString(s1, name, s.tok.text, 0);
      StatementStepTransitive(s, s1, s2);
      var r :- NextToken(s2);
      StatementStepTransitive(s, s2, r);
      Ok(r)
    else
      var s1 :- ParseExpression(s);
      var s2 := Emit(s1, StoreRax(name));
      StatementStepTransitive(s, s1, s2);
      var s3 := DeclareNumber(s2, name, s2.currentValue, 0);
      StatementStepTransitive(s, s2, s3);
      var r :- NextToken(s3);
      StatementStepTransitive(s, s3, r);
      Ok(r)
  }

  /** The declaration part of `parse_dim`, entered on the token after `=`:
      the variable is recorded with the DIM flag and an empty string or a
      zero; an expression is parsed but its value is not used, and nothing
      at all is emitted for it beyond what the expression emits. */
  function Declare(s: State, name: string): (r: Result<State>)
    requires |name| <= NameLimit
    ensures r.Ok? ==> StatementStep(s, r.value) && Progress(s, r.value)
    ensures r.Ok? && s.tok.Str? ==> r.value.vars == AddVariableString(s.vars, s.lineno, name, "", 1)
    ensures r.Ok? && !s.tok.Str? ==>
      && ParseExpression(s).Ok?
      && r.value.vars == AddVariableNumber(s.vars, ParseExpression(s).value.lineno, name, 0, 1)
  {
    if s.tok.Str? then
      var s1 := DeclareString(s, name, "", 1);
      var r :- NextToken(s1);
      StatementStepTransitive(s, s1, r);
      Ok(r)
    else
      var s1 :- ParseExpression(s);
      var s2 := DeclareNumber(s1, name, 0, 1);
      StatementStepTransitive(s, s1, s2);
      var r :- NextToken(s2);
      StatementStepTransitive(s, s2, r);
      Ok(r)
  }

  /** The common head of LET and DIM: `NAME =`, read past; the name is cut
      to 63 characters. */
  function Binding(s: State): (r: Result<(string, State)>)
    ensures r.Ok? ==> |r.value.0| <= NameLimit && StatementStep(s, r.value.1) && |r.value.1.rest| < |s.rest|
    ensures r.Ok? ==> r.value.1.vars == s.vars
  {
    var s1 :- NextToken(s);
    if !s1.tok.Ident? then Fail(ExpectedIdentifier) else
    var name := Truncate(s1.tok.name, NameLimit);
    var s2 :- NextToken(s1);
    StatementStepTransitive(s, s1, s2);
    if s2.tok != Eq then Fail(ExpectedEquals) else
    var s3 :- NextToken(s2);
    StatementStepTransitive(s, s2, s3);
    assert |s3.rest| <= |s2.rest| < |s1.rest|;
    Ok((name, s3))
  }

  /** `parse_let`: LET NAME = value. */
  function ParseLet(s: State): (r: Result<State>)
    ensures r.Ok? ==> StatementStep(s, r.value) && |r.value.rest| < |s.rest|
  {
    var (name, s1) :- Binding(s);
    var r :- Assign(s1, name);
    StatementStepTransitive(s, s1, r);
    Ok(r)
  }

  /** `parse_dim`: DIM NAME = value. */
  function ParseDim(s: State): (r: Result<State>)
    ensures r.Ok? ==> StatementStep(s, r.value) && |r.value.rest| < |s.rest|
  {
    var (name, s1) :- Binding(s);
    var r :- Declare(s1, name);
    StatementStepTransitive(s, s1, r);
    Ok(r)
  }

  /** `parse_goto`: GOTO followed by a numeric token, which becomes a jump
      to that line's label. */
  function ParseGoto(s: State): (r: Result<State>)
    ensures r.Ok? ==> StatementStep(s, r.value) && r.value.vars == s.vars && |r.value.rest| < |s.rest|
  {
    var s1 :- NextToken(s);
    if !s1.tok.Number? then Fail(ExpectedLineNumber) else
    var s2 := Emit(s1, Jmp(s1.tok.value));
    StatementStepTransitive(s, s1, s2);
    var r :- NextToken(s2);
    StatementStepTransitive(s, s2, r);
    Ok(r)
  }

  /** `parse_exit`: the exit system call, then the next token. */
  function ParseExit(s: State): (r: Result<State>)
    ensures r.Ok? ==> StatementStep(s, r.value) && r.value.vars == s.vars && Progress(s, r.value)
    ensures r.Ok? ==> s.code + (if s.output then [ExitSyscall] else []) <= r.value.code
    ensures r.Fail? <==> !Recognised(Peek(SkipBlanks(s.rest), 0))
  {
    var s1 := Emit(s, ExitSyscall);
    var r :- NextToken(s1);
    StatementStepTransitive(s, s1, r);
    Ok(r)
  }

  /** The branch an IF emits for its comparison operator: it jumps to the
      IF's skip label when the comparison does not hold. For `<` the source
      supplies no counter for the label's second number. */
  function Branch(op: Token, line: int, counter: int): (i: Instr)
    requires op == Lt || op == Gt || op == Eq
    // Each operator has its own jump, and every jump targets the IF's line.
    ensures (op == Eq <==> i.Jne?) && (op == Gt <==> i.Jg?) && (op == Lt <==> i.Jl?)
    ensures i.line == line
    ensures !i.Jl? ==> i.counter == counter
  {
    if op == Eq then Jne(line, counter)
    else if op == Gt then Jg(line, counter)
    else Jl(line)
  }

  /** The comparison of an IF, entered on the token after the left
      expression: for `<`, `>` or `=` the right expression is parsed and the
      comparison and conditional jump emitted; for any other token nothing
      happens. */
  function Compare(s: State, line: int): (r: Result<State>)
    ensures r.Ok? ==> ExpressionStep(s, r.value)
    ensures r.Ok? && s.tok != Lt && s.tok != Gt && s.tok != Eq ==> r.value == s
  {
    if s.tok == Lt || s.tok == Gt || s.tok == Eq then
      var s1 := Emit(s, PushRax);
      var s2 :- NextToken(s1);
      ExtendsTransitive(s, s1, s2);
      var s3 :- ParseExpression(s2);
      ExpressionStepTransitive(s, s2, s3);
      var s4 := Emit(Emit(s3, PopRbx), CmpRbxRax);
      ExtendsTransitive(s3, Emit(s3, PopRbx), s4);
      ExpressionStepTransitive(s, s3, s4);
      var s5 := Emit(s4, Branch(s.tok, line, s4.labelCounter));
      ExpressionStepTransitive(s, s4, s5);
      Ok(s5)
    else
      Ok(s)
  }

  /** `if_statement = 1; label_counter = 0`. */
  function Arm(s: State): (r: State)
    ensures Extends(s, r) && r.rest == s.rest && r.tok == s.tok
    ensures r == s.(ifStatement := true, labelCounter := 0)
  {
    s.(ifStatement := true, labelCounter := 0)
  }

  /** `if_statement = 0`. */
  function Disarm(s: State): (r: State)
    ensures Extends(s, r) && r.rest == s.rest && r.tok == s.tok
    ensures r == s.(ifStatement := false)
  {
    s.(ifStatement := false)
  }

  /** After the trailing statement: the skip label, then `label_counter++`. */
  function CloseIf(s: State, line: int): (r: State)
    ensures Extends(s, r) && r.rest == s.rest && r.tok == s.tok
    ensures r == s.(labelCounter := s.labelCounter + 1, code := r.code)
    ensures r.code == s.code + (if s.output then [SkipLabel(line, s.labelCounter)] else [])
  {
    var e := Emit(s, SkipLabel(line, s.labelCounter));
    e.(labelCounter := s.labelCounter + 1)
  }

  /** A simple statement keyword: the ones that may also follow an IF. */
  predicate IsTrailing(t: Token) {
    t == Print || t == Let || t == Goto || t == Exit
  }

  /** The tokens a numbered line may open a statement with. */
  predicate StartsStatement(t: Token) {
    IsTrailing(t) || t == Input || t == Dim || t == If
  }

  /** The statements PRINT, LET, GOTO and EXIT. */
  function ParseSimple(s: State): (r: Result<State>)
    requires IsTrailing(s.tok)
    ensures r.Ok? ==> StatementStep(s, r.value) && Progress(s, r.value)
  {
    if s.tok == Print then ParsePrint(s)
    else if s.tok == Let then ParseLet(s)
    else if s.tok == Goto then ParseGoto(s)
    else ParseExit(s)
  }

  /** `parse_statement`. A line number introduces any statement; without
      one, only the statement right after an IF's colon is accepted, and
      only if it is PRINT, LET, GOTO or EXIT. */
  function ParseStatement(s: State): (r: Result<State>)
    ensures r.Ok? ==> Extends(s, r.value) && Progress(s, r.value)
    ensures r.Ok? && !s.tok.LineNo? ==> r.value.labelCounter == s.labelCounter && !r.value.ifStatement
    ensures !s.tok.LineNo? && !s.ifStatement ==> r == Fail(InvalidStatement)
    ensures !s.tok.LineNo? && !IsTrailing(s.tok) ==> r == Fail(InvalidStatement)
    decreases |s.rest|, 0
  {
    if s.tok.LineNo? then
      var s1 :- NextToken(s);
      if IsTrailing(s1.tok) then
        var r :- ParseSimple(s1);
        ExtendsTransitive(s, s1, r);
        Ok(r)
      else if s1.tok == Input then
        var r :- ParseInput(s1);
        ExtendsTransitive(s, s1, r);
        Ok(r)
      else if s1.tok == Dim then
        var r :- ParseDim(s1);
        ExtendsTransitive(s, s1, r);
        Ok(r)
      else if s1.tok == If then
        var r :- ParseIf(s1);
        ExtendsTransitive(s, s1, r);
        Ok(r)
      else
        Fail(InvalidStatement)
    else if s.ifStatement then
      var s1 := Disarm(s);
      if IsTrailing(s1.tok) then
        var r :- ParseSimple(s1);
        ExtendsTransitive(s, s1, r);
        Ok(r)
      else
        Fail(InvalidStatement)
    else
      Fail(InvalidStatement)
  }

  /** The condition of an IF, entered on the IF token: the IF is armed
      with its counter reset to 0, then `expression [op expression]`. */
  function Condition(s: State, line: int): (r: Result<State>)
    requires s.tok == If
    ensures r.Ok? ==> Extends(s, r.value) && |r.value.rest| < |s.rest|
    ensures r.Ok? ==> r.value.ifStatement && r.value.labelCounter == 0
  {
    var s0 := Arm(s);
    var s1 :- NextToken(s0);
    ExtendsTransitive(s, s0, s1);
    var s2 :- ParseExpression(s1);
    ExtendsTransitive(s, s1, s2);
    var s3 :- Compare(s2, line);
    ExtendsTransitive(s, s2, s3);
    assert s1.tok != Eof;
    Ok(s3)
  }

  /** The IF branch of `parse_statement` up to its trailing statement: the
      condition, then the colon read past. */
  function IfHead(s: State, line: int): (r: Result<State>)
    requires s.tok == If
    ensures r.Ok? ==> Extends(s, r.value) && |r.value.rest| < |s.rest|
    ensures r.Ok? ==> r.value.ifStatement && r.value.labelCounter == 0
    // Whatever the condition, it must be followed by a colon.
    ensures Condition(s, line).Ok? && Condition(s, line).value.tok != Colon ==> r == Fail(ExpectedColon)
    ensures r.Ok? ==> Condition(s, line).Ok? && Condition(s, line).value.tok == Colon
  {
    var s3 :- Condition(s, line);
    if s3.tok != Colon then Fail(ExpectedColon) else
    var s4 :- NextToken(s3);
    ExtendsTransitive(s, s3, s4);
    Ok(s4)
  }

  /** The IF branch of `parse_statement`: the head, the trailing statement,
      then the skip label named by the IF's line and the per-IF counter. */
  function ParseIf(s: State): (r: Result<State>)
    requires s.tok == If
    ensures r.Ok? ==> Extends(s, r.value) && |r.value.rest| < |s.rest|
    decreases |s.rest|, 1
  {
    var line := s.lineno;
    var s1 :- IfHead(s, line);
    var s2 :- ParseStatement(s1);
    ExtendsTransitive(s, s1, s2);
    var r := CloseIf(s2, line);
    ExtendsTransitive(s, s2, r);
    Ok(r)
  }

  /** `parse_program`: statements until the end of the input, each followed
      by at most one newline being skipped. */
  function ParseProgram(s: State): (r: Result<State>)
    ensures r.Ok? ==> Extends(s, r.value) && r.value.tok == Eof
    decreases |s.rest|, if s.tok == Eof then 0 else 1
  {
    if s.tok == Eof then Ok(s) else
    var s1 :- ParseStatement(s);
    var s2 :- if s1.tok == Eol then NextToken(s1) else Ok(s1);
    ExtendsTransitive(s, s1, s2);
    assert s2.tok == Eof || |s2.rest| < |s.rest|;
    var r :- ParseProgram(s2);
    ExtendsTransitive(s, s2, r);
    Ok(r)
  }
}

=== FILE: tables.dfy ===
/**
 * The translator's two flat tables: the variable table, keyed
 * case-insensitively by name with first-declaration-wins, and the pool of
 * string-literal occurrences, which is appended to without de-duplication.
 * Both have a fixed capacity past which insertions are silently dropped.
 */
module Tables {
  import opened Basics

  const MaxVariables: nat := 1024
  const MaxStrings: nat := 1024
  /** Characters (each standing for one byte) of a name, or of a pooled
      literal, kept before the terminating NUL. */
  const NameLimit: nat := 63
  /** Characters of a string variable's value kept before the terminating NUL. */
  const TextLimit: nat := 255

  /** The union part of a variable; its constructor is the variable's kind. */
  datatype Payload = Num(value: int) | Text(text: string)

  datatype Variable = Variable(flags: nat, lineno: int, name: string, payload: Payload)

  /** Bit 0 of the flags: reserved by DIM rather than initialised by LET. */
  predicate DeclaredOnly(v: Variable) {
    v.flags % 2 == 1
  }

  datatype PoolEntry = PoolEntry(lineno: int, text: string)

  /** No two entries of the table share a name up to case. */
  predicate UniqueNames(vars: seq<Variable>) {
    forall i, j :: 0 <= i < j < |vars| ==> !SameIgnoringCase(vars[i].name, vars[j].name)
  }

  /** The index of the first entry whose name equals `name` up to case. */
  function FindVariable(vars: seq<Variable>, name: string): (r: Option<nat>)
    ensures r.Some? ==> r.value < |vars| && SameIgnoringCase(vars[r.value].name, name)
    ensures r.Some? ==> forall j :: 0 <= j < r.value ==> !SameIgnoringCase(vars[j].name, name)
    ensures r.None? <==> forall j :: 0 <= j < |vars| ==> !SameIgnoringCase(vars[j].name, name)
    decreases |vars|
  {
    if |vars| == 0 then None
    else if SameIgnoringCase(vars[0].name, name) then Some(0)
    else match FindVariable(vars[1..], name)
      case Some(i) => Some(i + 1)
      case None => None
  }

  /** Whether an insertion under `key` takes effect: the name is new and the
      table has room. */
  predicate Admits(vars: seq<Variable>, key: string) {
    FindVariable(vars, key).None? && |vars| < MaxVariables
  }

  /** The insertion shared by both add functions: `key` is the name looked up,
      `v` the entry stored when the insertion takes effect. */
  function Insert(vars: seq<Variable>, key: string, v: Variable): (r: seq<Variable>)
    ensures vars <= r
    ensures |r| == if Admits(vars, key) then |vars| + 1 else |vars|
    ensures |r| > |vars| ==> r[|vars|] == v
  {
    if Admits(vars, key) then vars + [v] else vars
  }

  /** A numeric variable enters the table unless its name is taken or the
      table is full; earlier entries are never altered. */
  function AddVariableNumber(vars: seq<Variable>, lineno: int, name: string, value: int, flags: nat): (r: seq<Variable>)
    ensures vars <= r
    ensures |r| == |vars| + 1 <==> Admits(vars, name)
    ensures |r| <= |vars| + 1
    ensures |r| > |vars| ==> r[|vars|] == Variable(flags, lineno, Truncate(name, NameLimit), Num(value))
    ensures |name| <= NameLimit && |vars| <= MaxVariables && UniqueNames(vars) ==>
      |r| <= MaxVariables && UniqueNames(r)
  {
    var v := Variable(flags, lineno, Truncate(name, NameLimit), Num(value));
    if |name| <= NameLimit && |vars| <= MaxVariables && UniqueNames(vars) then
      InsertKeepsTableSound(vars, name, v);
      Insert(vars, name, v)
    else
      Insert(vars, name, v)
  }

  /** A string variable enters the table unless its name is taken or the
      table is full; its value keeps at most 255 characters. */
  function AddVariableString(vars: seq<Variable>, lineno: int, name: string, value: string, flags: nat): (r: seq<Variable>)
    ensures vars <= r
    ensures |r| == |vars| + 1 <==> Admits(vars, name)
    ensures |r| <= |vars| + 1
    ensures |r| > |vars| ==> r[|vars|] == Variable(flags, lineno, Truncate(name, NameLimit), Text(Truncate(value, TextLimit)))
    ensures |name| <= NameLimit && |vars| <= MaxVariables && UniqueNames(vars) ==>
      |r| <= MaxVariables && UniqueNames(r)
  {
    var v := Variable(flags, lineno, Truncate(name, NameLimit), Text(Truncate(value, TextLimit)));
    if |name| <= NameLimit && |vars| <= MaxVariables && UniqueNames(vars) then
      InsertKeepsTableSound(vars, name, v);
      Insert(vars, name, v)
    else
      Insert(vars, name, v)
  }

  /** Every literal occurrence is recorded, identical or not, while the pool
      has room; earlier entries are never altered. */
  function AddString(pool: seq<PoolEntry>, lineno: int, text: string): (r: seq<PoolEntry>)
    ensures pool <= r
    ensures |r| == if |pool| < MaxStrings then |pool| + 1 else |pool|
    ensures |r| > |pool| ==> r[|pool|] == PoolEntry(lineno, Truncate(text, NameLimit))
  {
    if |pool| < MaxStrings then pool + [PoolEntry(lineno, Truncate(text, NameLimit))] else pool
  }

  // ---------------------------------------------------------------------
  // Properties of the variable table
  // ---------------------------------------------------------------------

  lemma SameIgnoringCaseSymmetric(a: string, b: string)
    ensures SameIgnoringCase(a, b) <==> SameIgnoringCase(b, a)
  {
  }

  lemma SameIgnoringCaseTransitive(a: string, b: string, c: string)
    requires SameIgnoringCase(a, b) && SameIgnoringCase(b, c)
    ensures SameIgnoringCase(a, c)
  {
  }

  /** Lookup only sees the entries present: appending never changes the
      answer for a name that was already found. */
  lemma {:induction false} FindInExtended(vars: seq<Variable>, more: seq<Variable>, name: string)
    requires FindVariable(vars, name).Some?
    ensures FindVariable(vars + more, name) == FindVariable(vars, name)
  {
    var i := FindVariable(vars, name).value;
    assert (vars + more)[i] == vars[i];
    assert forall j :: 0 <= j < i ==> (vars + more)[j] == vars[j];
  }

  /** Looking a name up right after declaring it finds the earlier entry when
      there was one, the new entry when the insertion took effect, and
      nothing when the table was full. */
  lemma {:induction false} LookupAfterAdd(vars: seq<Variable>, lineno: int, name: string, value: int, flags: nat)
    requires |name| <= NameLimit
    ensures FindVariable(AddVariableNumber(vars, lineno, name, value, flags), name) ==
      if FindVariable(vars, name).Some? then FindVariable(vars, name)
      else if |vars| < MaxVariables then Some(|vars|)
      else None
  {
    var r := AddVariableNumber(vars, lineno, name, value, flags);
    if FindVariable(vars, name).Some? {
      assert r == vars;
    } else if |vars| < MaxVariables {
      assert r == vars + [r[|vars|]];
      assert SameIgnoringCase(r[|vars|].name, name);
      assert forall j :: 0 <= j < |vars| ==> r[j] == vars[j];
    }
  }

  /** First declaration wins: a second declaration of the same name, of
      either kind and with any value or flags, leaves the table as the first
      one left it. */
  lemma {:induction false} FirstWriteWins(vars: seq<Variable>, key1: string, v1: Variable, key2: string, v2: Variable)
    requires |key1| <= NameLimit && v1.name == key1
    requires SameIgnoringCase(key1, key2)
    ensures Insert(Insert(vars, key1, v1), key2, v2) == Insert(vars, key1, v1)
  {
    var t := Insert(vars, key1, v1);
    match FindVariable(vars, key1)
    case Some(i) =>
      SameIgnoringCaseTransitive(vars[i].name, key1, key2);
      assert FindVariable(t, key2).Some?;
    case None =>
      if |vars| < MaxVariables {
        assert t[|vars|] == v1;
        assert SameIgnoringCase(t[|vars|].name, key2);
        assert FindVariable(t, key2).Some?;
      } else {
        assert t == vars;
        assert !Admits(t, key2);
      }
  }

  /** Declarations keep the table within capacity and its names distinct,
      provided the stored name is the name looked up (true whenever the name
      fits in 63 characters, as every identifier token does). */
  lemma {:induction false} InsertKeepsTableSound(vars: seq<Variable>, key: string, v: Variable)
    requires |vars| <= MaxVariables && UniqueNames(vars)
    requires v.name == key
    ensures |Insert(vars, key, v)| <= MaxVariables
    ensures UniqueNames(Insert(vars, key, v))
  {
    var r := Insert(vars, key, v);
    if Admits(vars, key) {
      forall i, j | 0 <= i < j < |r|
        ensures !SameIgnoringCase(r[i].name, r[j].name)
      {
        if j == |vars| {
          assert r[i] == vars[i];
          SameIgnoringCaseSymmetric(v.name, key);
        } else {
          assert r[i] == vars[i] && r[j] == vars[j];
        }
      }
    }
  }

  /** The pool does not de-duplicate: recording the same literal twice on
      the same line yields two entries while there is room. */
  lemma PoolKeepsDuplicates(pool: seq<PoolEntry>, lineno: int, text: string)
    requires |pool| + 2 <= MaxStrings
    ensures var r := AddString(AddString(pool, lineno, text), lineno, text);
      |r| == |pool| + 2 && r[|pool|] == r[|pool| + 1] && r[..|pool|] == pool
  {
  }
}
